=== FILE: README.md ===
# Exercise counter core, modelled in Dafny

APS-Python counts physical exercises (push-ups, jumping jacks) in a video. A pose detector
finds body landmarks in each frame, and a small state machine turns one number per frame into
a repetition count. A filter module provides numpy filters (mirroring, zero padding,
kernel convolution). Counting functions are looked up by exercise name in a registry. Tk
dialogs let the user pick the exercise and the video source.

This project models the pure logic of that core and proves properties of it:

| module | file | models |
|---|---|---|
| `Base` | base.dfy | `Option`, `Result` and the Python exception classes raised |
| `Sums` | sums.dfy | finite double sums, used by the convolution |
| `Images` | images.dfy | images of rank 2 and 3, and the two mirroring filters of cntexercicios/filtros.py |
| `Padding` | padding.dfy | `estender_com_zeros` |
| `Correlation` | correlation.dfy | `convolucao` on integer kernels |
| `Hysteresis` | hysteresis.dfy | the two-threshold counting machine and the frame loop that both push-up counters share, with an independent reference count; each property of the loop is proved once, for any per-frame update that classifies frames into zones |
| `PushUps` | pushups.dfy | the counting step of `contar_flexoes` (cntexercicios/exercicios/flexoes/__init__.py) |
| `PushUpsPixels` | pushups_pixels.dfy | the counting step of the older pixel-distance counter (src/package/exercicios/flexoes.py) |
| `Registry` | registry.dfy | `registrar_exercicio`, `listar_exercicios` and `contar_exercicios`: the same registry logic in cntexercicios/exercicios/_registro.py and src/cntexercicios/exercicios/_registro.py |
| `Dialogs` | dialogs.dfy | button-grid sizing and placement, the device-index key validator, Python's `int()` on the entered text under the interpreter's digit limit, and the decision made by the "Concluir" button |

## How the model reads the code

- numpy's behaviour is written out wherever the code depends on it. Slices of a padded image are
  clipped the way Python clips them. A slice of length 1 is broadcast over the whole output. Any
  other length mismatch raises `ValueError`.
- `np.empty` returns memory that is not initialised. The model passes its contents in as a
  parameter (`Padding.Junk`). So a proof that a result does not depend on that memory is a
  proof for every possible value of it.
- `astype(np.uint8)` keeps the low 8 bits: `Correlation.Byte` is `x % 256`. The int64
  accumulator can wrap, but that wrap is invisible after narrowing
  (`Correlation.NarrowingIgnoresWrap`), so sums are taken as exact integers.
- Pose geometry is abstracted away. Each frame of `contar_flexoes` becomes a `Reading`: a
  validity flag (landmarks found and every posture gate passed) and the normalised height
  `h_flexao`. Each frame of the pixel counter becomes a `Frame`: either no landmarks, or the
  shoulder-to-wrist distance.
- Heights and distances are doubles in the code and reals in the model. Each threshold is the
  exact value of the double its literal denotes. The double `0.30` is slightly below 3/10 and
  the double `0.40` slightly above 4/10, so `PushUps.Completed` and `PushUps.Rearmed` are
  written out in full. Then comparing a double sample with a threshold as reals gives the
  same answer as Python's float comparison, even for a sample equal to the threshold. 70 and
  100 are exact doubles.
- A counting function in the registry is an opaque value. It records only the video arguments
  on which it raises.

### Literal behaviours kept by the model

The model keeps these behaviours of the code exactly as written:

- The convolution narrows to 8 bits with `astype(np.uint8)`, which wraps modulo 256; values
  outside [0, 255] are not clamped. It picks an integer or a floating-point accumulator from
  the kernel's dtype alone.
- The kernel is applied without being flipped, so the operation is a correlation
  (`Correlation.KernelIsNotFlipped`).
- Padding by a width of 0 on an axis of length 2 or more fails, because the target slice
  `0:-0` is empty (`Padding.ZeroWidthFails`). On an axis of length 1 it succeeds but leaves
  uninitialised memory in place of the image (`Padding.ZeroWidthCopiesNothing`).
- So a 1 x 1 kernel without `reduzir` fails on every image with 2 or more rows or columns
  (`Correlation.OneByOneNeedsReduce`).
- A kernel with an even number of rows fails with a broadcast error on every image whose
  height is neither 0 nor 2, and likewise for columns and the width
  (`Correlation.EvenKernelFails`). The heights 0 and 2 are not exceptions in general: a
  2-row kernel pads by 0 rows and so still fails on a 2-row image. On a 0-row image every
  tap slice is empty, as is the output. A 4 x 3 kernel succeeds on a 2-row image, because
  its last row tap slices a single row, which broadcasts (`Correlation.EvenKernelOnTwoRows`).
- With `reduzir`, a 3 x 3 kernel does not give an (H-1) x (W-1) image. The output buffer has
  `H - 1` rows, but the first tap's slice has `H`, so numpy raises on every image with two or
  more rows (`Correlation.ReduceRejectsWideKernels`).
- The thresholds are the doubles 0.30 and 0.40 in `contar_flexoes`, and 70 and 100 pixels in the older
  counter. The height sequence 0.9, 0.9, 0.1, 0.1, 0.9, 0.1 counts two push-ups
  (`PushUps.TwoPushUps`).
- The grid-sizing helper's docstring says it minimises blank cells, but it does not. A
  misspelt variable means every candidate replaces the previous one, so it always returns
  `min(n, 8)` columns (`Dialogs.GridIsNotTheLeastBlank`).
- Python's `int()` skips only tab, line feed, vertical tab, form feed, carriage return and
  space around an ASCII number; the separators 0x1C-0x1F, which `str.strip` would remove,
  make the text invalid (`Dialogs.SeparatorIsNotSpace`).
- `int()` refuses a decimal literal with more digits than the interpreter's limit
  (`sys.get_int_max_str_digits()`), raising ValueError. The limit is only consulted above 640
  digits and defaults to 4300 on CPython 3.11 and later and on the security releases 3.7.14,
  3.8.14, 3.9.14 and 3.10.7. Older interpreters, which the package also supports (Python 3.6
  and later), and a limit set to 0 have none; `AtMost(0)` behaves like `Unlimited`
  (`Dialogs.ZeroLimitIsNoLimit`). The model takes the limit as a parameter
  (`Dialogs.DigitLimit`, with `Unlimited` for no limit), so a validated device text of 4301
  digits brings up the invalid-device box under the default (`Dialogs.LongDeviceTextComplains`).

## Model

| member | source | states |
|---|---|---|
| `Images.Reverse` | cntexercicios/filtros.py:8 | the `::-1` slice: same length, element i is element len-1-i of the input |
| `Images.ReverseTwice` | cntexercicios/filtros.py:8 | reversing twice gives back the sequence |
| `Images.MirrorVertical` | cntexercicios/filtros.py:4-8 | same shape; row r of the result is row height-1-r of the input |
| `Images.MirrorHorizontal` | cntexercicios/filtros.py:10-14 | same shape; a rank-2 image has its columns reversed; a rank-3 image keeps its columns and has the channel order of every pixel reversed |
| `Images.MirrorVerticalTwice` | cntexercicios/filtros.py:4-8 | the vertical mirror is an involution |
| `Images.MirrorHorizontalTwice` | cntexercicios/filtros.py:10-14 | the horizontal mirror is an involution for both ranks |
| `Padding.BorderWidths` | cntexercicios/filtros.py:23-38 | None gives (1, 1); a value that is not a list or tuple is a TypeError; a list or tuple is accepted exactly when it holds two non-negative ints, otherwise ValueError |
| `Padding.ExtendedCell` | cntexercicios/filtros.py:42-51 | a cell has the image's depth; with both widths at least 1 it is the zero-extended image shifted by (dx, dy); with a zero width, a cell off the border keeps the `np.empty` contents |
| `Padding.Extend` | cntexercicios/filtros.py:40-51 | succeeds exactly when the centre copy broadcasts on both axes; the result keeps rank and depth and grows by 2dx rows and 2dy columns |
| `Padding.ExtendWithZeros` | cntexercicios/filtros.py:16-51 | rank below 2 is a ValueError checked first; argument errors come next; a success has the enlarged shape |
| `Padding.ExtendIsShiftedImage` | cntexercicios/filtros.py:40-51 | with widths of at least 1, every cell is the zero-extended input shifted by (dx, dy), whatever the uninitialised buffer held |
| `Padding.DefaultIsOneCell` | cntexercicios/filtros.py:23-25 | the default size pads exactly like (1, 1) |
| `Padding.ArgumentErrors` | cntexercicios/filtros.py:21-35 | the error raised for each kind of bad argument, in the order the checks run |
| `Padding.ZeroWidthFails` | cntexercicios/filtros.py:44-50 | a zero width along an axis of length 2 or more fails to broadcast |
| `Padding.SucceedsIff` | cntexercicios/filtros.py:40-50 | padding succeeds if and only if each width is positive or its axis has length at most 1 |
| `Padding.ZeroWidthCopiesNothing` | cntexercicios/filtros.py:42-50 | when a zero width does succeed, the interior holds the uninitialised buffer, not the image |
| `Correlation.SliceLength` | cntexercicios/filtros.py:88 | a Python slice is never longer than requested, stays inside the axis, and is exact when it fits; when it overruns, it is clipped to the end of the axis, or empty if it starts at or past the end |
| `Correlation.Tap` | cntexercicios/filtros.py:85-90 | one tap's contribution: nothing when the weight is 0, and, when the tap's slice fits both axes without broadcasting, the weight times the source pixel shifted by the tap offset |
| `Correlation.Byte` | cntexercicios/filtros.py:93 | the uint8 cast lands in 0..255 and keeps values already in range |
| `Correlation.Correlate` | cntexercicios/filtros.py:83-93 | the accumulated output has the requested shape and only 8-bit elements |
| `Correlation.Convolve` | cntexercicios/filtros.py:53-93 | the checks in source order (image rank, kernel rank, empty kernel axis); a kernel dtype that is neither integer nor float always raises, and with `reduzir` raises exactly the dtype error once the earlier checks pass; every raise is a ValueError; integer kernels compute, floating kernels accumulate in floats; output keeps the shape, or shrinks by the half-spans with `reduzir` |
| `Correlation.ReachesLoop` | cntexercicios/filtros.py:53-93 | when every check passes for an integer kernel, the result is the accumulation over the (padded) image with the output shape the code allocates |
| `Correlation.ComputedIsCorrelation` | cntexercicios/filtros.py:67-93 | every computed result is the accumulation over some source image |
| `Correlation.CorrelateZeroKernel` | cntexercicios/filtros.py:83-93 | an all-zero kernel accumulates to zeros whatever the source |
| `Correlation.Reference` | cntexercicios/filtros.py:85-90 | the textbook zero-padded correlation has the input's shape |
| `Correlation.OddKernelReachesLoop` | cntexercicios/filtros.py:61-90 | an odd kernel of at least 3 x 3 always passes padding and broadcasting and reaches the accumulation |
| `Correlation.PaddedTapsAgree` | cntexercicios/filtros.py:85-90 | over the padded image each tap reads the zero-extended input at the textbook position |
| `Correlation.OddKernelIsReference` | cntexercicios/filtros.py:53-93 | for odd kernels of at least 3 x 3 without `reduzir`, the result equals the reference correlation |
| `Correlation.ZeroKernelGivesBlack` | cntexercicios/filtros.py:83-93 | any successful call with an all-zero kernel returns an all-zero image |
| `Correlation.ReferenceOfIdentity` | cntexercicios/filtros.py:85-90 | the centre-1 kernel's reference picks each element itself, narrowed |
| `Correlation.IdentityKernelKeepsImage` | cntexercicios/filtros.py:53-93 | the centre-1 kernel returns an 8-bit image unchanged |
| `Correlation.ReferenceOfRightNeighbour` | cntexercicios/filtros.py:85-90 | the reference for a weight right of centre reads the right neighbour |
| `Correlation.KernelIsNotFlipped` | cntexercicios/filtros.py:85-90 | a weight right of centre copies the right neighbour, so the kernel is not flipped |
| `Correlation.ReduceRejectsWideKernels` | cntexercicios/filtros.py:67-90 | with `reduzir`, a kernel of 3 or more rows (columns) fails on any image of 2 or more rows (columns) |
| `Correlation.ReduceOneByOne` | cntexercicios/filtros.py:67-93 | with `reduzir`, a 1 x 1 kernel scales every element by its weight modulo 256 |
| `Correlation.OneByOneNeedsReduce` | cntexercicios/filtros.py:65-68 | without `reduzir`, a 1 x 1 kernel fails on images of 2 or more rows or columns |
| `Correlation.EvenKernelFails` | cntexercicios/filtros.py:65-90 | a kernel with an even number of rows (columns) fails with a broadcast error on every image whose height (width) is neither 0 nor 2 |
| `Correlation.EvenKernelOnTwoRows` | cntexercicios/filtros.py:65-90 | a 4 x 3 kernel succeeds on a 2-row image, its last tap slicing a single row |
| `Correlation.NarrowingIgnoresWrap` | cntexercicios/filtros.py:83-93 | a wrap of the accumulator modulo 2^64 does not change the narrowed byte |
| `Hysteresis.Advance` | cntexercicios/exercicios/flexoes/__init__.py:89-96 | a frame adds at most one; it adds one exactly when armed and Low; the flag is set by High and kept only outside Low |
| `Hysteresis.RunMatchesReference` | cntexercicios/exercicios/flexoes/__init__.py:89-96 | the machine's count is the number of completing frames, and its flag is the independent reference flag |
| `Hysteresis.IncrementIffCompletes` | cntexercicios/exercicios/flexoes/__init__.py:89-96 | frame i raises the count exactly when it completes a repetition |
| `Hysteresis.CountMonotone` | cntexercicios/exercicios/flexoes/__init__.py:89-96 | the count never decreases and grows by at most one per frame |
| `Hysteresis.ArmedAfterLowNeedsHigh` | cntexercicios/exercicios/flexoes/__init__.py:89-96 | being armed after a Low frame needs a later High frame |
| `Hysteresis.BetweenCompletions` | cntexercicios/exercicios/flexoes/__init__.py:89-96 | between two completing frames lies a re-arming High frame |
| `Hysteresis.WithoutHighAtMostOne` | cntexercicios/exercicios/flexoes/__init__.py:89-96 | without any High frame the count ends at 0 or 1 |
| `Hysteresis.Keep` | cntexercicios/exercicios/flexoes/__init__.py:52-96 | keeps the frames the predicate accepts: each kept frame is from the input and accepted, every accepted frame is kept, and nothing is dropped when every frame is accepted |
| `Hysteresis.KeepAppend` | cntexercicios/exercicios/flexoes/__init__.py:52-96 | filtering distributes over concatenation, so the kept frames stay in their original order |
| `Hysteresis.BandIsInvisible` | cntexercicios/exercicios/flexoes/__init__.py:89-96 | dropping every frame in the band leaves the final state unchanged |
| `Hysteresis.FeedFirst` | cntexercicios/exercicios/flexoes/__init__.py:41 | the frame loop reads frames front to back: the first frame updates the start state and the loop goes on from there |
| `Hysteresis.FeedAppend` | src/package/exercicios/flexoes.py:33 | looping over two stretches of frames in turn is looping over their concatenation: the counter is the loop's only state |
| `Hysteresis.FeedIsRun` | cntexercicios/exercicios/flexoes/__init__.py:40-96 | a frame loop whose per-frame update is the hysteresis step on the frames' zones ends where the machine ends on those zones |
| `Hysteresis.FeedMatchesReference` | cntexercicios/exercicios/flexoes/__init__.py:32-96 | from count 0 and armed, such a loop ends at the reference count and flag |
| `Hysteresis.FeedCountMonotone` | cntexercicios/exercicios/flexoes/__init__.py:89-96 | along such a loop the count never decreases and grows by at most one per frame |
| `Hysteresis.FeedCountedIffCompletes` | cntexercicios/exercicios/flexoes/__init__.py:89-96 | a frame of such a loop adds one exactly when it completes a repetition by the reference definition |
| `Hysteresis.FeedNoDoubleCount` | cntexercicios/exercicios/flexoes/__init__.py:89-96 | between two frames that each add one lies a frame in the High zone |
| `Hysteresis.FeedWithoutHighAtMostOne` | cntexercicios/exercicios/flexoes/__init__.py:89-96 | without a High frame such a loop counts at most one repetition |
| `Hysteresis.SkippedInvisible` | cntexercicios/exercicios/flexoes/__init__.py:52-96 | frames the per-frame update leaves unchanged can be dropped, wherever they occur, without changing the final state |
| `PushUps.Step` | cntexercicios/exercicios/flexoes/__init__.py:89-96 | invalid frames change nothing; a push-up is counted exactly when armed and the height is below the double 0.30 (`Completed`), which also disarms, and an armed counter is otherwise left as it was; heights from the double 0.30 up to, but not including, the double 0.40 change nothing; a disarmed counter re-arms exactly at heights at or above the double 0.40 (`Rearmed`), keeping the count, and is otherwise left as it was |
| `PushUps.StepIsAdvance` | cntexercicios/exercicios/flexoes/__init__.py:89-96 | for every state and reading, the nested update is the hysteresis step on the reading's zone (invalid readings and heights from `Completed` up to, but not including, `Rearmed` fall in the band) |
| `PushUps.SessionMatchesReference` | cntexercicios/exercicios/flexoes/__init__.py:32-34 | a session starts at count 0, armed, and ends at the reference count and flag |
| `PushUps.CountMonotone` | cntexercicios/exercicios/flexoes/__init__.py:89-96 | the count never decreases and grows by at most one per frame |
| `PushUps.CountedIffCompletes` | cntexercicios/exercicios/flexoes/__init__.py:89-96 | a frame counts a push-up exactly when it is a valid reading strictly below the double 0.30, which is itself not counted, and the readings before it leave the counter armed by the reference definition |
| `PushUps.NoDoubleCount` | cntexercicios/exercicios/flexoes/__init__.py:89-96 | between two counted frames lies a valid frame at a height of at least the double 0.40 |
| `PushUps.InvalidFramesInvisible` | cntexercicios/exercicios/flexoes/__init__.py:52-96 | dropping the frames without landmarks or rejected by a posture gate, wherever they occur, leaves count and flag unchanged |
| `PushUps.WithoutRearmAtMostOne` | cntexercicios/exercicios/flexoes/__init__.py:89-96 | without re-arming, at most one push-up is counted |
| `PushUps.TwoPushUps` | cntexercicios/exercicios/flexoes/__init__.py:89-96 | heights 0.9, 0.9, 0.1, 0.1, 0.9, 0.1 count two push-ups |
| `PushUpsPixels.Step` | src/package/exercicios/flexoes.py:53-59 | frames without landmarks change nothing; one push-up is counted exactly when armed at 70 pixels or less, which also disarms; 100 or more re-arms without counting; distances in between change nothing |
| `PushUpsPixels.StepIsAdvance` | src/package/exercicios/flexoes.py:53-59 | for every state and frame, the two sequential tests are the hysteresis step on the frame's zone: no frame both counts and re-arms |
| `PushUpsPixels.SessionMatchesReference` | src/package/exercicios/flexoes.py:28-30 | a session starts at count 0, armed, and ends at the reference count and flag |
| `PushUpsPixels.CountMonotone` | src/package/exercicios/flexoes.py:53-59 | the count never decreases and grows by at most one per frame |
| `PushUpsPixels.NoDoubleCount` | src/package/exercicios/flexoes.py:53-59 | between two counted frames lies a frame at 100 pixels or more |
| `PushUpsPixels.MissingPoseInvisible` | src/package/exercicios/flexoes.py:44-59 | dropping the frames without landmarks, wherever they occur, leaves count and flag unchanged |
| `PushUpsPixels.WithoutRearmAtMostOne` | src/package/exercicios/flexoes.py:53-59 | without reaching 100 pixels, at most one push-up is counted |
| `Registry.RegisterExercise` | cntexercicios/exercicios/_registro.py:45-62 | the factory raises RuntimeError exactly when the name is already registered; otherwise it returns a decorator for that name |
| `Registry.Decorate` | cntexercicios/exercicios/_registro.py:49-60 | the decorator maps the name to the function and returns the function; a new name is appended to the order and an existing one keeps its place |
| `Registry.ListExercises` | cntexercicios/exercicios/_registro.py:65-71 | the listing holds every registered name exactly once and nothing else |
| `Registry.Declare` | src/cntexercicios/exercicios/_registro.py:25-34 | a decorated definition fails exactly on a registered name and keeps the registry well formed |
| `Registry.DeclareAll` | src/cntexercicios/exercicios/_registro.py:25-34 | a sequence of decorated definitions keeps the registry well formed |
| `Registry.DeclareFresh` | src/cntexercicios/exercicios/_registro.py:29-31 | declaring fresh distinct names succeeds and appends them in declaration order |
| `Registry.DeclareFreshMaps` | src/cntexercicios/exercicios/_registro.py:29-31 | each declared name maps to its own function |
| `Registry.DeclareKeepsOthers` | src/cntexercicios/exercicios/_registro.py:29-31 | declarations of other names leave an entry alone |
| `Registry.ListingFollowsDeclarations` | src/cntexercicios/exercicios/_registro.py:37-41 | after a program declares distinct names, the listing is those names in declaration order, each with its function |
| `Registry.DuplicateDeclarationFails` | src/cntexercicios/exercicios/_registro.py:25-26 | a repeated or already registered name makes the declarations fail with the duplicate error |
| `Registry.CheckedOnlyAtFactoryCall` | cntexercicios/exercicios/_registro.py:45-62 | two factories for one fresh name both succeed; applying both registers the later function, listed once |
| `Registry.CountExercise` | cntexercicios/exercicios/_registro.py:74-122 | argument errors in source order; the call returns None if and only if exactly one counter ran and did not raise; no error except the counter's own follows a call |
| `Registry.LookupAndCall` | src/cntexercicios/exercicios/_registro.py:57-74 | after the checks, an unknown name is a ValueError with no call; a known name calls its own function once, returning None or raising RuntimeError when the counter raises |
| `Registry.ChecksPrecedeLookup` | src/cntexercicios/exercicios/_registro.py:45-55 | each argument error occurs exactly under its condition, whatever the registry holds; only the type errors are TypeErrors |
| `Dialogs.CeilDiv` | cntexercicios/dialogos.py:52 | the least number of rows of the given width that holds all buttons |
| `Dialogs.GridSize` | cntexercicios/dialogos.py:42-64 | (0, 0) for no buttons; otherwise min(n, 8) columns and the fewest rows that hold n buttons |
| `Dialogs.EstimateGrid` | cntexercicios/dialogos.py:42-64 | the loop, with its dead minimum test, always returns the closed form and never raises |
| `Dialogs.GridHoldsAllButtons` | cntexercicios/dialogos.py:52-56 | the grid never has fewer cells than buttons, so the RuntimeError is unreachable |
| `Dialogs.GridIsNotTheLeastBlank` | cntexercicios/dialogos.py:43-59 | nine buttons get 2 x 8 with 7 blanks although 3 x 3 leaves none |
| `Dialogs.Place` | cntexercicios/dialogos.py:38 | row * columns + column is the index, and the column is below the width |
| `Dialogs.PlacementFitsAndIsInjective` | cntexercicios/dialogos.py:23-39 | every button lands inside the grid, and no two share a cell |
| `Dialogs.AcceptsDeviceText` | cntexercicios/dialogos.py:168-170 | the validator accepts exactly the texts made only of digits, the empty one included |
| `Dialogs.IsSpace` | cntexercicios/dialogos.py:192 | the whitespace `int()` skips is exactly tab, line feed, vertical tab, form feed, carriage return and space |
| `Dialogs.StripLeading` | cntexercicios/dialogos.py:192 | removes exactly the leading whitespace that `int()` skips: tab through carriage return, and space |
| `Dialogs.StripTrailing` | cntexercicios/dialogos.py:192 | removes exactly the trailing whitespace that `int()` skips: tab through carriage return, and space |
| `Dialogs.LeadingOfPadded` | cntexercicios/dialogos.py:192 | leading whitespace before text that does not start with whitespace is removed, and nothing else |
| `Dialogs.TrailingOfPadded` | cntexercicios/dialogos.py:192 | trailing whitespace after text that does not end with whitespace is removed, and nothing else |
| `Dialogs.StripOfPadded` | cntexercicios/dialogos.py:192 | the whitespace `int()` strips: whitespace, then a part that neither starts nor ends with whitespace, then whitespace, leaves exactly that part |
| `Dialogs.DigitCount` | cntexercicios/dialogos.py:192 | the digits `int()` counts against its limit never outnumber the characters, and there are none exactly when every character is an underscore |
| `Dialogs.Admits` | cntexercicios/dialogos.py:192-193 | up to 640 digits every limit admits the text; the default limit admits exactly up to 4300 digits; no limit and a limit of 0 admit every count |
| `Dialogs.ZeroLimitIsNoLimit` | cntexercicios/dialogos.py:192-193 | a digit limit of 0 converts every text exactly as no limit does |
| `Dialogs.DigitsValueBound` | cntexercicios/dialogos.py:192 | a literal's value is below 10 to the number of its digits, underscores adding nothing |
| `Dialogs.ParseUnsigned` | cntexercicios/dialogos.py:192-193 | an unsigned literal converts exactly when it is well grouped and its digit count is admitted by the limit, and then to a value below 10 to that count |
| `Dialogs.DigitCountAppend` | cntexercicios/dialogos.py:192 | the digit count of a concatenation is the sum of the parts' counts |
| `Dialogs.DigitCountOfDigits` | cntexercicios/dialogos.py:192 | in text made only of digits, every character counts |
| `Dialogs.ParseTrimmed` | cntexercicios/dialogos.py:192-193 | empty text does not convert; after a minus sign the value is at most 0, otherwise at least 0 |
| `Dialogs.ParseInt` | cntexercicios/dialogos.py:192-193 | blank text does not parse; a leading minus gives a value of at most 0, otherwise a value of at least 0 |
| `Dialogs.ParseRendered` | cntexercicios/dialogos.py:192-193 | every integer's decimal text parses back to it when the limit admits its digit count, and raises ValueError otherwise |
| `Dialogs.NegativeDigits` | cntexercicios/dialogos.py:192-193 | a minus sign before digits negates their value within the limit, and fails beyond it |
| `Dialogs.ParseNegative` | cntexercicios/dialogos.py:192-193 | the same for the untrimmed text: a minus sign before digits negates their value within the limit, and raises beyond it |
| `Dialogs.ParseDigits` | cntexercicios/dialogos.py:189-193 | non-empty digit text parses to its decimal value when the limit admits its length, and raises ValueError otherwise |
| `Dialogs.ParseSurroundingSpace` | cntexercicios/dialogos.py:192 | surrounding whitespace is accepted, under any limit |
| `Dialogs.SeparatorIsNotSpace` | cntexercicios/dialogos.py:192-194 | a file separator (0x1C) before the digits makes the text invalid, although `str.isspace` accepts it |
| `Dialogs.UnderscoreIgnored` | cntexercicios/dialogos.py:192 | one underscore between digits neither changes the outcome nor the value, and does not count against the limit |
| `Dialogs.DoubleUnderscoreFails` | cntexercicios/dialogos.py:192 | two underscores in a row anywhere make the text fail to parse |
| `Dialogs.Conclude` | cntexercicios/dialogos.py:178-201 | file mode chooses the path exactly when it is non-empty; device mode chooses `int(text)` exactly when the text parses under the interpreter's digit limit; an empty device text complains that none was given |
| `Dialogs.ValidatedDeviceConcludes` | cntexercicios/dialogos.py:168-201 | ASCII text that passed the validator either complains that it is empty, or chooses its decimal value as the device index when the limit admits its length, or otherwise shows the invalid-device error |
| `Dialogs.LongDeviceTextComplains` | cntexercicios/dialogos.py:168-194 | under the default 4300-digit limit, all-digit text longer than 4300 passes the validator and then shows the invalid-device error |

## Left out

- Images.MirrorVertical: arrays of rank other than 2 and 3 are not modelled, because the frames are always images.
- Images.MirrorHorizontal: arrays of rank other than 2 and 3 are not modelled, for the same reason.
- Padding.ExtendWithZeros: arrays of rank 4 or more are accepted by the code but not modelled. No caller passes them: the convolution rejects them first.
- Correlation.Convolve: the floating-point accumulation of float kernels ends in `FloatAccumulation`. Its result is not computed, because casting out-of-range floats to uint8 is not defined by numpy. Every check before it is modelled.
- Correlation.Convolve: numpy dtype promotion is not modelled. Products are exact integers, and `NarrowingIgnoresWrap` shows that the int64 wrap cannot change the narrowed byte.
- PushUps.Step: a NaN height compares false with both thresholds. Such a frame behaves like an invalid reading, which is how it should be supplied.
- The posture and hand gates and the `h_flexao` geometry of `contar_flexoes` (norms, dot product, `arctan2`): floating-point geometry, replaced by the validity flag and the height.
- The `hypot` distance and the `int` truncation of landmark pixels in the older counter: floating-point geometry, replaced by the distance itself.
- The jumping-jack counter (cntexercicios/exercicios/polichinelos): floating-point geometry, outside the modelled core.
- Video capture (cntexercicios/video.py), pose detection, drawing and on-screen text: I/O.
- The `__main__.py` scripts, package `__init__.py` glue and setup.py: command-line and packaging plumbing.
- Tk widgets, event loops, message boxes, focus and enabled-state changes (`_on_mudanca_tipo_entrada`), the file-open dialog (`_abrir_arquivo`) and `selecionar_exercicio`: GUI I/O. The model keeps only the values these pass on.
- Dialogs.AcceptsDeviceText: `str.isdigit` also accepts non-ASCII digits, which are not modelled; text is ASCII.
- Dialogs.ParseInt: non-ASCII digits and whitespace, which Python's `int()` also accepts, are not modelled.
- Dialogs.ValidatedDeviceConcludes: holds for ASCII text only. A non-ASCII character that `str.isdigit` accepts but that is not a decimal digit, such as the superscript '²', passes the key validator and then makes `int()` raise, so the invalid-device box can appear.
- Dialogs.GridSize: `math.ceil(n / c)` goes through a float. It is exact for every realistic n (below 2^53), so the model uses exact division.
- Registry.Value: a bool is the `Int` 0 or 1, so a counter's `raisesOn` cannot tell `True` from `1`. The video reader (cntexercicios/video.py:26-27) raises TypeError on a bool and accepts the int; the model passes `True` as `1`, so that TypeError is not modelled.
- Registry.RegisterExercise: names are strings. An unhashable name, which would make the dict test raise TypeError, is not modelled.
- Registry.CountExercise: a counter that raises a `BaseException` that is not an `Exception` (such as `KeyboardInterrupt`) propagates unchanged. Counters here only raise ordinary exceptions.
- The deprecation warning of the first registry file and the exception messages: message formatting is not behaviour of the core.

=== FILE: base.dfy ===
/** Small shared vocabulary: optional values, results, and the Python exception classes the
    modelled code raises. */
module Base {

  datatype Option<+T> = None | Some(value: T)

  /** The outcome of a Python call that either returns a value or raises. */
  datatype Result<+T, +E> = Ok(value: T) | Err(error: E)

  /** The built-in exception classes raised by the modelled functions. */
  datatype PyException = ValueError | TypeError | RuntimeError
}

=== FILE: correlation.dfy ===
/** `convolucao` (cntexercicios/filtros.py) on integer kernels: a direct sliding-window
    multiply-accumulate over every kernel tap, narrowed to 8 bits. */
module Correlation {
  import opened Base
  import opened Sums
  import opened Images
  import opened Padding

  /** The kind of the kernel's numpy dtype. */
  datatype DType = Integral | Floating | OtherKind

  /** A kernel array: its rank, its dtype kind, and for rank 2 its `rows x cols` weights. */
  datatype Kernel = Kernel(ndim: nat, dtype: DType, rows: nat, cols: nat, k: seq<seq<int>>)

  predicate KernelValid(kn: Kernel)
  {
    kn.ndim == 2 ==> |kn.k| == kn.rows && forall i :: 0 <= i < kn.rows ==> |kn.k[i]| == kn.cols
  }

  /** The weight at tap (i, j), 0 outside the kernel. */
  function Weight(kn: Kernel, i: int, j: int): int
  {
    if 0 <= i < |kn.k| && 0 <= j < |kn.k[i]| then kn.k[i][j] else 0
  }

  /** What a call of `convolucao` does: return an image, raise, or (for a floating-point
      kernel that passed every check) accumulate in floating point, which is not modelled. */
  datatype Convolution = Computed(out: Image) | Raised(fault: Fault) | FloatAccumulation

  /** Length of the Python slice `start:start+len` on an axis of `avail` entries. */
  function SliceLength(start: nat, len: nat, avail: nat): (n: nat)
    ensures n <= len && (n == 0 || start + n <= avail)
    ensures start + len <= avail ==> n == len
    ensures n == len || start + n == avail || (n == 0 && avail <= start)
  {
    if start + len <= avail then len else if start <= avail then avail - start else 0
  }

  /** numpy broadcasts a `len`-long axis of an operand into a `target`-long axis of `out`
      exactly when the lengths agree or the operand's axis has length 1. */
  predicate Broadcasts(len: nat, target: int)
  {
    len == target || len == 1
  }

  /** The index along one axis that output position `pos` reads for the tap at offset
      `start`, when the tap's slice has `len` entries: a length-1 slice is broadcast, so every
      output position reads its single entry. */
  function Source(start: int, pos: int, len: nat): int
  {
    if len == 1 then start else start + pos
  }

  /** Every tap's slice `src[i:h+i, j:w+j]` broadcasts into the `outH x outW` buffer. */
  predicate TapsFit(src: Image, kn: Kernel, h: nat, w: nat, outH: int, outW: int)
  {
    && (forall i: nat :: i < kn.rows ==> Broadcasts(SliceLength(i, h, src.height), outH))
    && (forall j: nat :: j < kn.cols ==> Broadcasts(SliceLength(j, w, src.width), outW))
  }

  /** `astype(np.uint8)`: keeps the low 8 bits, so the value wraps modulo 256 rather than
      being clamped. */
  function Byte(x: int): (b: int)
    ensures 0 <= b < 256
    ensures (x - b) % 256 == 0
    ensures 0 <= x < 256 ==> b == x
  {
    x % 256
  }

  /** The contribution of tap (i, j) to output element (r, c, k), as lines 85-90 compute it. */
  function Tap(src: Image, kn: Kernel, h: nat, w: nat, r: int, c: int, k: int): (t: (nat, nat) -> int)
    ensures forall i: nat, j: nat :: Weight(kn, i, j) == 0 ==> t(i, j) == 0
    ensures forall i: nat, j: nat :: h != 1 && w != 1 && i + h <= src.height && j + w <= src.width ==>
      t(i, j) == Weight(kn, i, j) * At(src, i + r, j + c, k)
  {
    (i: nat, j: nat) =>
      Weight(kn, i, j) *
      At(src, Source(i, r, SliceLength(i, h, src.height)), Source(j, c, SliceLength(j, w, src.width)), k)
  }

  /** The output buffer after the loop over all taps, narrowed to 8 bits. The narrowing only
      depends on the sum modulo 256, so the int64 accumulator numpy uses gives the same bytes
      whether or not it overflows (see NarrowingIgnoresWrap). */
  function Correlate(src: Image, kn: Kernel, a: Image, outH: nat, outW: nat): (out: Image)
    requires IsImage(a)
    ensures IsImage(out) && IsBytes(out)
    ensures out.ndim == a.ndim && out.depth == a.depth && out.height == outH && out.width == outW
  {
    Image(a.ndim, outH, outW, a.depth,
      seq(outH, r requires 0 <= r < outH =>
        seq(outW, c requires 0 <= c < outW =>
          seq(a.depth, k requires 0 <= k < a.depth =>
            Byte(GridSum(Tap(src, kn, a.height, a.width, r, c, k), kn.rows, kn.cols))))))
  }

  /** `convolucao(imagem, kernel, reduzir)`. `junk` stands for the contents of the
      uninitialised buffer allocated when the image is padded. */
  function Convolve(a: Image, kn: Kernel, reduce: bool, junk: Junk): (r: Convolution)
    requires Valid(a) && KernelValid(kn)
    ensures (a.ndim < 2 || a.ndim > 3) ==> r == Raised(BadImageRank)
    ensures (a.ndim == 2 || a.ndim == 3) && kn.ndim != 2 ==> r == Raised(BadKernelRank)
    ensures (a.ndim == 2 || a.ndim == 3) && kn.ndim == 2 && (kn.rows == 0 || kn.cols == 0) ==>
      r == Raised(EmptyKernelAxis)
    ensures reduce && (a.ndim == 2 || a.ndim == 3) && kn.ndim == 2 && kn.rows > 0 && kn.cols > 0 ==>
      (kn.dtype == OtherKind <==> r == Raised(BadKernelType))
    ensures kn.dtype == OtherKind ==> r.Raised?
    ensures r.Raised? ==> r.fault.Raises() == ValueError
    ensures r.FloatAccumulation? ==> kn.dtype == Floating
    ensures r.Computed? ==> kn.dtype == Integral
    ensures r.Computed? ==> IsImage(r.out) && IsBytes(r.out)
    ensures r.Computed? ==> r.out.ndim == a.ndim && r.out.depth == a.depth
    ensures r.Computed? && !reduce ==> SameShape(r.out, a)
    ensures r.Computed? && reduce ==>
      r.out.height == a.height - (kn.rows - 1) / 2 && r.out.width == a.width - (kn.cols - 1) / 2
  {
    if a.ndim > 3 || a.ndim < 2 then Raised(BadImageRank)
    else if kn.ndim != 2 then Raised(BadKernelRank)
    else if kn.rows == 0 || kn.cols == 0 then Raised(EmptyKernelAxis)
    else
      var sx: nat := (kn.rows - 1) / 2;
      var sy: nat := (kn.cols - 1) / 2;
      var padded := if reduce then Ok(a) else ExtendWithZeros(a, Pair(sx, sy), junk);
      if padded.Err? then
        assert BorderWidths(Pair(sx, sy)) == Ok((sx, sy));
        Raised(padded.error)
      else if kn.dtype == OtherKind then Raised(BadKernelType)
      else
        var outH := if reduce then a.height - sx else a.height;
        var outW := if reduce then a.width - sy else a.width;
        if outH < 0 || outW < 0 then Raised(NegativeDimension)
        else if !TapsFit(padded.value, kn, a.height, a.width, outH, outW) then Raised(CannotBroadcast)
        else if kn.dtype == Floating then FloatAccumulation
        else
          assert kn.dtype.Integral?;
          Computed(Correlate(padded.value, kn, a, outH, outW))
  }

  /** The textbook definition: tap (i, j) of output (r, c) weighs the zero-extended image at
      (r + i - sx, c + j - sy). The kernel is not flipped, so this is a correlation. */
  function ReferenceTap(a: Image, kn: Kernel, r: int, c: int, k: int): (nat, nat) -> int
  {
    var sx := (kn.rows - 1) / 2;
    var sy := (kn.cols - 1) / 2;
    (i: nat, j: nat) => Weight(kn, i, j) * At(a, r + i - sx, c + j - sy, k)
  }

  /** The zero-padded, same-size correlation of `a` with `kn`, narrowed to 8 bits. */
  function Reference(a: Image, kn: Kernel): (ref: Image)
    requires IsImage(a)
    ensures IsImage(ref) && SameShape(ref, a)
  {
    a.(px := seq(a.height, r requires 0 <= r < a.height =>
               seq(a.width, c requires 0 <= c < a.width =>
                 seq(a.depth, k requires 0 <= k < a.depth =>
                   Byte(GridSum(ReferenceTap(a, kn, r, c, k), kn.rows, kn.cols))))))
  }

  /** Two images whose elements agree everywhere are equal. */
  lemma ImageExt(x: Image, y: Image)
    requires IsImage(x) && IsImage(y) && SameShape(x, y)
    requires forall r, c, k :: 0 <= r < x.height && 0 <= c < x.width && 0 <= k < x.depth ==>
      x.px[r][c][k] == y.px[r][c][k]
    ensures x == y
  {
    forall r | 0 <= r < x.height
      ensures x.px[r] == y.px[r]
    {
      forall c | 0 <= c < x.width
        ensures x.px[r][c] == y.px[r][c]
      {
      }
    }
  }

  /** The path through `convolucao` that passes every check and reaches the loop. */
  lemma ReachesLoop(a: Image, kn: Kernel, reduce: bool, junk: Junk, src: Image, outH: nat, outW: nat)
    requires IsImage(a) && KernelValid(kn) && kn.ndim == 2 && kn.dtype == Integral
    requires kn.rows >= 1 && kn.cols >= 1
    requires reduce ==> src == a
    requires !reduce ==> ExtendWithZeros(a, Pair((kn.rows - 1) / 2, (kn.cols - 1) / 2), junk) == Ok(src)
    requires outH == if reduce then a.height - (kn.rows - 1) / 2 else a.height
    requires outW == if reduce then a.width - (kn.cols - 1) / 2 else a.width
    requires TapsFit(src, kn, a.height, a.width, outH, outW)
    ensures Convolve(a, kn, reduce, junk) == Computed(Correlate(src, kn, a, outH, outW))
  {
  }

  /** One element of the accumulated output. */
  lemma CorrelateAt(src: Image, kn: Kernel, a: Image, outH: nat, outW: nat, r: nat, c: nat, k: nat)
    requires IsImage(a) && r < outH && c < outW && k < a.depth
    ensures Correlate(src, kn, a, outH, outW).px[r][c][k]
         == Byte(GridSum(Tap(src, kn, a.height, a.width, r, c, k), kn.rows, kn.cols))
  {
  }

  /** One element of the reference correlation. */
  lemma ReferenceAt(a: Image, kn: Kernel, r: nat, c: nat, k: nat)
    requires IsImage(a) && r < a.height && c < a.width && k < a.depth
    ensures Reference(a, kn).px[r][c][k] == Byte(GridSum(ReferenceTap(a, kn, r, c, k), kn.rows, kn.cols))
  {
  }

  /** Over a buffer `dr` rows and `dc` columns larger than the image, every tap's slice has the
      image's own length. */
  lemma PaddedTapsFit(a: Image, kn: Kernel, e: Image)
    requires e.height == a.height + kn.rows - 1 && e.width == a.width + kn.cols - 1
    ensures TapsFit(e, kn, a.height, a.width, a.height, a.width)
  {
    assert forall i: nat :: i < kn.rows ==> SliceLength(i, a.height, e.height) == a.height;
    assert forall j: nat :: j < kn.cols ==> SliceLength(j, a.width, e.width) == a.width;
  }

  /** For an odd kernel of at least 3 x 3 the padded image has room for every tap, so the call
      reaches the accumulation over the padded image. */
  lemma OddKernelReachesLoop(a: Image, kn: Kernel, junk: Junk)
    requires IsImage(a) && KernelValid(kn) && kn.ndim == 2 && kn.dtype == Integral
    requires kn.rows % 2 == 1 && kn.rows >= 3 && kn.cols % 2 == 1 && kn.cols >= 3
    ensures ExtendWithZeros(a, Pair((kn.rows - 1) / 2, (kn.cols - 1) / 2), junk).Ok?
    ensures var e := ExtendWithZeros(a, Pair((kn.rows - 1) / 2, (kn.cols - 1) / 2), junk).value;
      Convolve(a, kn, false, junk) == Computed(Correlate(e, kn, a, a.height, a.width))
  {
    var sx: nat := (kn.rows - 1) / 2;
    var sy: nat := (kn.cols - 1) / 2;
    ExtendIsShiftedImage(a, sx, sy, junk);
    var e := ExtendWithZeros(a, Pair(sx, sy), junk).value;
    PaddedTapsFit(a, kn, e);
    ReachesLoop(a, kn, false, junk, e, a.height, a.width);
  }

  /** Over a padded image whose slices all have the image's own length, every tap reads the
      zero-extended image at the textbook position, so the two sums agree. */
  lemma PaddedTapsAgree(a: Image, kn: Kernel, e: Image, r: nat, c: nat, k: nat)
    requires IsImage(a) && kn.ndim == 2
    requires kn.rows % 2 == 1 && kn.cols % 2 == 1 && kn.rows >= 1 && kn.cols >= 1
    requires e.height == a.height + kn.rows - 1 && e.width == a.width + kn.cols - 1
    requires IsImage(e) && e.depth == a.depth
    requires forall x, y, z :: 0 <= x < e.height && 0 <= y < e.width && 0 <= z < e.depth ==>
      e.px[x][y][z] == At(a, x - (kn.rows - 1) / 2, y - (kn.cols - 1) / 2, z)
    requires r < a.height && c < a.width && k < a.depth
    ensures GridSum(Tap(e, kn, a.height, a.width, r, c, k), kn.rows, kn.cols)
         == GridSum(ReferenceTap(a, kn, r, c, k), kn.rows, kn.cols)
  {
    var t := Tap(e, kn, a.height, a.width, r, c, k);
    var u := ReferenceTap(a, kn, r, c, k);
    forall i: nat, j: nat | i < kn.rows && j < kn.cols
      ensures t(i, j) == u(i, j)
    {
      assert SliceLength(i, a.height, e.height) == a.height;
      assert SliceLength(j, a.width, e.width) == a.width;
      assert Source(i, r, a.height) == i + r;
      assert Source(j, c, a.width) == j + c;
      assert i + r < e.height && j + c < e.width;
      assert At(e, i + r, j + c, k) == e.px[i + r][j + c][k];
      assert e.px[i + r][j + c][k] == At(a, r + i - (kn.rows - 1) / 2, c + j - (kn.cols - 1) / 2, k);
    }
    GridSumExt(t, u, kn.rows, kn.cols);
  }

  /** A kernel whose two dimensions are odd and at least 3, without `reduzir`: the call always
      succeeds and returns the textbook zero-padded correlation, the same shape as the input. */
  lemma OddKernelIsReference(a: Image, kn: Kernel, junk: Junk)
    requires IsImage(a) && KernelValid(kn) && kn.ndim == 2 && kn.dtype == Integral
    requires kn.rows % 2 == 1 && kn.rows >= 3 && kn.cols % 2 == 1 && kn.cols >= 3
    ensures Convolve(a, kn, false, junk) == Computed(Reference(a, kn))
  {
    var sx: nat := (kn.rows - 1) / 2;
    var sy: nat := (kn.cols - 1) / 2;
    assert 2 * sx == kn.rows - 1 && 2 * sy == kn.cols - 1;
    OddKernelReachesLoop(a, kn, junk);
    ExtendIsShiftedImage(a, sx, sy, junk);
    var e := ExtendWithZeros(a, Pair(sx, sy), junk).value;
    var out := Correlate(e, kn, a, a.height, a.width);
    var ref := Reference(a, kn);
    forall r, c, k | 0 <= r < a.height && 0 <= c < a.width && 0 <= k < a.depth
      ensures out.px[r][c][k] == ref.px[r][c][k]
    {
      PaddedTapsAgree(a, kn, e, r, c, k);
      CorrelateAt(e, kn, a, a.height, a.width, r, c, k);
      ReferenceAt(a, kn, r, c, k);
    }
    ImageExt(out, ref);
  }

  /** A computed result is the accumulation over the image itself (with `reduzir`) or over
      its padded copy (without). */
  lemma ComputedIsCorrelation(a: Image, kn: Kernel, reduce: bool, junk: Junk)
    requires Valid(a) && KernelValid(kn) && Convolve(a, kn, reduce, junk).Computed?
    ensures IsImage(a)
    ensures var out := Convolve(a, kn, reduce, junk).out;
      exists src :: out == Correlate(src, kn, a, out.height, out.width)
  {
    var sx: nat := (kn.rows - 1) / 2;
    var sy: nat := (kn.cols - 1) / 2;
    var src := if reduce then a else ExtendWithZeros(a, Pair(sx, sy), junk).value;
    var out := Convolve(a, kn, reduce, junk).out;
    assert out == Correlate(src, kn, a, out.height, out.width);
  }

  /** Accumulating with an all-zero kernel gives zeros, whatever the source image. */
  lemma CorrelateZeroKernel(src: Image, kn: Kernel, a: Image, outH: nat, outW: nat)
    requires IsImage(a)
    requires forall i, j :: 0 <= i < |kn.k| && 0 <= j < |kn.k[i]| ==> kn.k[i][j] == 0
    ensures var out := Correlate(src, kn, a, outH, outW);
      forall y, x, k :: 0 <= y < outH && 0 <= x < outW && 0 <= k < a.depth ==> out.px[y][x][k] == 0
  {
    var out := Correlate(src, kn, a, outH, outW);
    forall y, x, k | 0 <= y < outH && 0 <= x < outW && 0 <= k < a.depth
      ensures out.px[y][x][k] == 0
    {
      GridSumZero(Tap(src, kn, a.height, a.width, y, x, k), kn.rows, kn.cols);
    }
  }

  /** Any successful call with an all-zero kernel returns an all-black image. */
  lemma ZeroKernelGivesBlack(a: Image, kn: Kernel, reduce: bool, junk: Junk)
    requires Valid(a) && KernelValid(kn)
    requires forall i, j :: 0 <= i < |kn.k| && 0 <= j < |kn.k[i]| ==> kn.k[i][j] == 0
    ensures var r := Convolve(a, kn, reduce, junk);
      r.Computed? ==>
        forall y, x, k :: 0 <= y < r.out.height && 0 <= x < r.out.width && 0 <= k < r.out.depth ==>
          r.out.px[y][x][k] == 0
  {
    var r := Convolve(a, kn, reduce, junk);
    if r.Computed? {
      ComputedIsCorrelation(a, kn, reduce, junk);
      var src :| r.out == Correlate(src, kn, a, r.out.height, r.out.width);
      CorrelateZeroKernel(src, kn, a, r.out.height, r.out.width);
    }
  }

  /** The 3 x 3 kernel with a single 1 in the centre. */
  function IdentityKernel(): Kernel
  {
    Kernel(2, Integral, 3, 3, [[0, 0, 0], [0, 1, 0], [0, 0, 0]])
  }

  /** The textbook correlation with the centre-1 kernel narrows every element to 8 bits. */
  lemma ReferenceOfIdentity(a: Image, r: nat, c: nat, k: nat)
    requires IsImage(a) && r < a.height && c < a.width && k < a.depth
    ensures Reference(a, IdentityKernel()).px[r][c][k] == Byte(a.px[r][c][k])
  {
    var kn := IdentityKernel();
    var g := ReferenceTap(a, kn, r, c, k);
    forall i: nat, j: nat | i < 3 && j < 3 && (i != 1 || j != 1)
      ensures g(i, j) == 0
    {
      assert Weight(kn, i, j) == 0;
    }
    GridSumSingle(g, 3, 3, 1, 1);
    assert g(1, 1) == At(a, r, c, k);
  }

  /** The centre-1 kernel gives back an 8-bit image unchanged. */
  lemma IdentityKernelKeepsImage(a: Image, junk: Junk)
    requires IsImage(a) && IsBytes(a)
    ensures Convolve(a, IdentityKernel(), false, junk) == Computed(a)
  {
    OddKernelIsReference(a, IdentityKernel(), junk);
    var ref := Reference(a, IdentityKernel());
    forall r, c, k | 0 <= r < a.height && 0 <= c < a.width && 0 <= k < a.depth
      ensures ref.px[r][c][k] == a.px[r][c][k]
    {
      ReferenceOfIdentity(a, r, c, k);
    }
    ImageExt(ref, a);
  }

  /** The 3 x 3 kernel with a single 1 just right of the centre. */
  function RightNeighbourKernel(): Kernel
  {
    Kernel(2, Integral, 3, 3, [[0, 0, 0], [0, 0, 1], [0, 0, 0]])
  }

  lemma ReferenceOfRightNeighbour(a: Image, r: nat, c: nat, k: nat)
    requires IsImage(a) && r < a.height && c < a.width && k < a.depth
    ensures Reference(a, RightNeighbourKernel()).px[r][c][k] == Byte(At(a, r, c + 1, k))
  {
    var kn := RightNeighbourKernel();
    var g := ReferenceTap(a, kn, r, c, k);
    forall i: nat, j: nat | i < 3 && j < 3 && (i != 1 || j != 2)
      ensures g(i, j) == 0
    {
      assert Weight(kn, i, j) == 0;
    }
    GridSumSingle(g, 3, 3, 1, 2);
    assert g(1, 2) == At(a, r, c + 1, k);
  }

  /** The kernel is applied without flipping: the weight right of the centre makes every
      output pixel copy its RIGHT neighbour (a flipped convolution would copy the left one). */
  lemma KernelIsNotFlipped(a: Image, junk: Junk, r: nat, c: nat, k: nat)
    requires IsImage(a) && r < a.height && c < a.width && k < a.depth
    ensures Convolve(a, RightNeighbourKernel(), false, junk).Computed?
    ensures Convolve(a, RightNeighbourKernel(), false, junk).out.px[r][c][k] == Byte(At(a, r, c + 1, k))
  {
    OddKernelIsReference(a, RightNeighbourKernel(), junk);
    ReferenceOfRightNeighbour(a, r, c, k);
  }

  /** With `reduzir`, a kernel of 3 or more rows fails on any image of 2 or more rows (and
      likewise for columns): the output buffer has `h - sx` rows while the tap at offset 0
      slices `h` rows, and numpy cannot broadcast one into the other. */
  lemma ReduceRejectsWideKernels(a: Image, kn: Kernel, junk: Junk)
    requires IsImage(a) && KernelValid(kn) && kn.ndim == 2 && kn.dtype != OtherKind
    requires kn.rows >= 1 && kn.cols >= 1
    requires (kn.rows >= 3 && a.height >= 2) || (kn.cols >= 3 && a.width >= 2)
    ensures var r := Convolve(a, kn, true, junk);
      r == Raised(CannotBroadcast) || r == Raised(NegativeDimension)
  {
    var sx: nat := (kn.rows - 1) / 2;
    var sy: nat := (kn.cols - 1) / 2;
    if a.height - sx >= 0 && a.width - sy >= 0 {
      if kn.rows >= 3 && a.height >= 2 {
        assert !Broadcasts(SliceLength(0, a.height, a.height), a.height - sx);
      } else {
        assert !Broadcasts(SliceLength(0, a.width, a.width), a.width - sy);
      }
    }
  }

  /** With `reduzir`, a 1 x 1 kernel always succeeds and scales every element by its weight,
      modulo 256. */
  lemma ReduceOneByOne(a: Image, kn: Kernel, junk: Junk)
    requires IsImage(a) && KernelValid(kn) && kn.ndim == 2 && kn.dtype == Integral
    requires kn.rows == 1 && kn.cols == 1
    ensures var r := Convolve(a, kn, true, junk);
      && r.Computed? && SameShape(r.out, a)
      && forall y, x, k :: 0 <= y < a.height && 0 <= x < a.width && 0 <= k < a.depth ==>
           r.out.px[y][x][k] == Byte(kn.k[0][0] * a.px[y][x][k])
  {
    PaddedTapsFit(a, kn, a);
    ReachesLoop(a, kn, true, junk, a, a.height, a.width);
    var out := Correlate(a, kn, a, a.height, a.width);
    forall y, x, k | 0 <= y < a.height && 0 <= x < a.width && 0 <= k < a.depth
      ensures out.px[y][x][k] == Byte(kn.k[0][0] * a.px[y][x][k])
    {
      var t := Tap(a, kn, a.height, a.width, y, x, k);
      CorrelateAt(a, kn, a, a.height, a.width, y, x, k);
      GridSumSingle(t, 1, 1, 0, 0);
      assert Source(0, y, a.height) == y;
      assert Source(0, x, a.width) == x;
    }
  }

  /** Without `reduzir`, a 1 x 1 kernel pads by (0, 0), which fails on any image with 2 or
      more rows or columns. */
  lemma OneByOneNeedsReduce(a: Image, kn: Kernel, junk: Junk)
    requires IsImage(a) && KernelValid(kn) && kn.ndim == 2
    requires kn.rows == 1 && kn.cols == 1
    requires a.height >= 2 || a.width >= 2
    ensures Convolve(a, kn, false, junk) == Raised(CannotBroadcast)
  {
    ZeroWidthFails(a, 0, 0, junk);
  }

  /** Without `reduzir`, a kernel with an even number of rows fails unless the image has 0 or 2
      rows (likewise for columns): the last tap's slice is one row short, and only a 1-row slice
      can broadcast. */
  lemma EvenKernelFails(a: Image, kn: Kernel, junk: Junk)
    requires IsImage(a) && KernelValid(kn) && kn.ndim == 2 && kn.dtype != OtherKind
    requires kn.rows >= 1 && kn.cols >= 1
    requires (kn.rows % 2 == 0 && a.height != 0 && a.height != 2) ||
             (kn.cols % 2 == 0 && a.width != 0 && a.width != 2)
    ensures Convolve(a, kn, false, junk) == Raised(CannotBroadcast)
  {
    var sx: nat := (kn.rows - 1) / 2;
    var sy: nat := (kn.cols - 1) / 2;
    SucceedsIff(a, sx, sy, junk);
    var p := ExtendWithZeros(a, Pair(sx, sy), junk);
    if p.Ok? {
      assert BorderWidths(Pair(sx, sy)) == Ok((sx, sy));
      if kn.rows % 2 == 0 && a.height != 0 && a.height != 2 {
        var i: nat := kn.rows - 1;
        assert !Broadcasts(SliceLength(i, a.height, p.value.height), a.height);
      } else {
        var j: nat := kn.cols - 1;
        assert !Broadcasts(SliceLength(j, a.width, p.value.width), a.width);
      }
    }
  }

  /** An even kernel does not always fail: a 4 x 3 kernel on a 2-row image succeeds, because
      its last tap slices a single row, which numpy broadcasts over both output rows. */
  lemma EvenKernelOnTwoRows(a: Image, kn: Kernel, junk: Junk)
    requires IsImage(a) && a.height == 2
    requires KernelValid(kn) && kn.ndim == 2 && kn.dtype == Integral && kn.rows == 4 && kn.cols == 3
    ensures Convolve(a, kn, false, junk).Computed?
    ensures SliceLength(3, a.height, a.height + 2) == 1
  {
    ExtendIsShiftedImage(a, 1, 1, junk);
    var e := ExtendWithZeros(a, Pair(1, 1), junk).value;
    assert forall i: nat :: i < 4 ==> Broadcasts(SliceLength(i, a.height, e.height), a.height);
    assert forall j: nat :: j < 3 ==> SliceLength(j, a.width, e.width) == a.width;
  }

  /** The 8-bit narrowing cannot see a wrap of the accumulator modulo 2^64. */
  lemma NarrowingIgnoresWrap(x: int, q: int)
    ensures Byte(x + q * 0x1_0000_0000_0000_0000) == Byte(x)
  {
    var m := q * 0x100_0000_0000_0000;
    assert q * 0x1_0000_0000_0000_0000 == 256 * m;
    assert (x + 256 * m) % 256 == x % 256;
  }
}

=== FILE: dialogs.dfy ===
/** The pure decisions inside the Tk dialogs of cntexercicios/dialogos.py: the size of the grid
    of exercise buttons and where each button goes, the key validator of the device-index
    entry, and what the "Concluir" button does with the two inputs. */
module Dialogs {
  import opened Base

  // ---------------------------------------------------------------------------------------
  // Button grid
  // ---------------------------------------------------------------------------------------

  /** `ceil(a / b)` on exact integers. */
  function CeilDiv(a: nat, b: nat): (q: nat)
    requires b > 0
    ensures q * b >= a
    ensures q == 0 || (q - 1) * b < a
  {
    (a + b - 1) / b
  }

  function Min(a: int, b: int): int
  {
    if a <= b then a else b
  }

  /** What `_estimar_tamanho_grade_botoes(n)` returns, as (rows, columns). The loop's test
      reads `sobra_minima`, which is never assigned (the assignment goes to the misspelt
      `sobra_minma`), so every candidate replaces the previous one and the last candidate,
      `min(n, 8)` columns, wins. */
  function GridSize(n: int): (g: (nat, nat))
    ensures n <= 0 ==> g == (0, 0)
    ensures n >= 1 ==> g.1 == Min(n, 8) && g.0 * g.1 >= n && (g.0 - 1) * g.1 < n
  {
    if n <= 0 then (0, 0) else (CeilDiv(n, Min(n, 8)), Min(n, 8))
  }

  /** Empty cells of a grid holding `n` buttons. */
  function Blanks(g: (nat, nat), n: int): int
  {
    g.0 * g.1 - n
  }

  /** The loop's test `sobra_minima is None or sobra_minima > sobrando`. */
  predicate Improves(least: Option<int>, blanks: int)
  {
    match least
    case None => true
    case Some(v) => v > blanks
  }

  /** The loop as written, with the dead `sobra_minima` test and the `RuntimeError` branch.
      The result is always the closed form above, so that branch is never taken. */
  method EstimateGrid(n: int) returns (r: Result<(nat, nat), PyException>)
    ensures r == Ok(GridSize(n))
  {
    var leastBlanks: Option<int> := None;        // `sobra_minima`, only ever read
    var leastBlanksMisspelt: Option<int> := None; // `sobra_minma`, only ever written
    var best: Option<(nat, nat)> := None;
    var last := if n <= 0 then 0 else Min(n, 8);
    var cols := 1;
    while cols <= last
      invariant 1 <= cols <= last + 1
      invariant leastBlanks == None
      invariant cols == 1 ==> best == None
      invariant cols > 1 ==> best == Some((CeilDiv(n, cols - 1), cols - 1))
    {
      var rows := CeilDiv(n, cols);
      var blanks := rows * cols - n;
      if blanks < 0 {
        return Err(RuntimeError);
      }
      if Improves(leastBlanks, blanks) {
        leastBlanksMisspelt := Some(blanks);
        best := Some((rows, cols));
      }
      cols := cols + 1;
    }
    if best.Some? {
      return Ok(best.value);
    }
    return Ok((0, 0));
  }

  /** The grid is never too small for its buttons. */
  lemma GridHoldsAllButtons(n: int)
    ensures Blanks(GridSize(n), n) >= 0
  {
  }

  /** The grid does not minimise blank cells: nine buttons get 2 rows of 8 with 7 blanks,
      although 3 rows of 3, also tried by the loop, leave none. */
  lemma GridIsNotTheLeastBlank()
    ensures GridSize(9) == (2, 8) && Blanks(GridSize(9), 9) == 7
    ensures Blanks((CeilDiv(9, 3), 3), 9) == 0
  {
  }

  /** `divmod(index, cols)`: the button's (row, column). */
  function Place(index: nat, cols: nat): (p: (nat, nat))
    requires cols > 0
    ensures p.0 * cols + p.1 == index && p.1 < cols
  {
    (index / cols, index % cols)
  }

  /** Every button of `n` lands inside the grid, and no two share a cell. */
  lemma PlacementFitsAndIsInjective(n: int, i: nat, j: nat)
    requires i < n && j < n
    ensures GridSize(n).1 > 0
    ensures Place(i, GridSize(n).1).0 < GridSize(n).0
    ensures Place(i, GridSize(n).1).1 < GridSize(n).1
    ensures i != j ==> Place(i, GridSize(n).1) != Place(j, GridSize(n).1)
  {
    var (rows, cols) := GridSize(n);
    var (r, c) := Place(i, cols);
    if r >= rows {
      assert r * cols >= rows * cols by {
        MultiplyMonotone(rows, r, cols);
      }
      assert false;
    }
  }

  lemma MultiplyMonotone(a: nat, b: nat, c: nat)
    requires a <= b
    ensures a * c <= b * c
  {
  }

  // ---------------------------------------------------------------------------------------
  // Device index text
  // ---------------------------------------------------------------------------------------

  predicate IsDigit(c: char)
  {
    '0' <= c <= '9'
  }

  predicate AllDigits(t: string)
  {
    forall i :: 0 <= i < |t| ==> IsDigit(t[i])
  }

  /** `_validar_indice_dispositivo(texto)`: `texto.isdigit() or len(texto) == 0`, where
      `isdigit` is false on the empty string. */
  function AcceptsDeviceText(t: string): (ok: bool)
    ensures ok <==> AllDigits(t)
  {
    (|t| > 0 && AllDigits(t)) || |t| == 0
  }

  /** The ASCII whitespace `int()` skips around a number: tab, line feed, vertical tab, form
      feed, carriage return and space. The separators 0x1C-0x1F, which `str.isspace` also
      accepts, are not among them. */
  function IsSpace(c: char): (b: bool)
    ensures b <==> c in {'\t', '\n', '\U{000B}', '\U{000C}', '\r', ' '}
  {
    ('\t' <= c <= '\r') || c == ' '
  }

  /** The text without its leading whitespace. */
  function StripLeading(t: string): (s: string)
    ensures |s| <= |t| && s == t[|t| - |s|..]
    ensures forall k :: 0 <= k < |t| - |s| ==> IsSpace(t[k])
    ensures |s| == 0 || !IsSpace(s[0])
  {
    if |t| > 0 && IsSpace(t[0]) then StripLeading(t[1..]) else t
  }

  /** The text without its trailing whitespace. */
  function StripTrailing(t: string): (s: string)
    ensures |s| <= |t| && s == t[..|s|]
    ensures forall k :: |s| <= k < |t| ==> IsSpace(t[k])
    ensures |s| == 0 || !IsSpace(s[|s| - 1])
  {
    if |t| > 0 && IsSpace(t[|t| - 1]) then StripTrailing(t[..|t| - 1]) else t
  }

  function Strip(t: string): string
  {
    StripTrailing(StripLeading(t))
  }

  /** Text made only of whitespace. */
  predicate Blank(x: string)
  {
    forall k :: 0 <= k < |x| ==> IsSpace(x[k])
  }

  /** Leading whitespace in front of text that does not start with whitespace is removed,
      and nothing else. */
  lemma {:induction false} LeadingOfPadded(x: string, r: string)
    requires Blank(x) && (r == [] || !IsSpace(r[0]))
    ensures StripLeading(x + r) == r
    decreases |x|
  {
    if x == [] {
      assert x + r == r;
    } else {
      assert (x + r)[0] == x[0] && (x + r)[1..] == x[1..] + r;
      LeadingOfPadded(x[1..], r);
    }
  }

  /** Trailing whitespace after text that does not end with whitespace is removed, and
      nothing else. */
  lemma {:induction false} TrailingOfPadded(r: string, y: string)
    requires Blank(y) && (r == [] || !IsSpace(r[|r| - 1]))
    ensures StripTrailing(r + y) == r
    decreases |y|
  {
    if y == [] {
      assert r + y == r;
    } else {
      var y' := y[..|y| - 1];
      assert (r + y)[|r + y| - 1] == y[|y| - 1] && (r + y)[..|r + y| - 1] == r + y';
      TrailingOfPadded(r, y');
    }
  }

  /** `Strip` gives back the middle of any text made of whitespace, a middle part that
      neither starts nor ends with whitespace, and whitespace. */
  lemma {:induction false} StripOfPadded(x: string, s: string, y: string)
    requires Blank(x) && Blank(y)
    requires s == [] || (!IsSpace(s[0]) && !IsSpace(s[|s| - 1]))
    ensures Strip(x + s + y) == s
  {
    if s == [] {
      assert x + s + y == (x + y) + [];
      LeadingOfPadded(x + y, []);
      assert StripTrailing([]) == [];
    } else {
      assert x + s + y == x + (s + y) && (s + y)[0] == s[0];
      LeadingOfPadded(x, s + y);
      TrailingOfPadded(s, y);
    }
  }

  /** Digits in groups separated by single underscores, as Python's integer literals allow. */
  predicate WellGrouped(s: string)
  {
    && |s| > 0 && IsDigit(s[0]) && IsDigit(s[|s| - 1])
    && (forall i :: 0 <= i < |s| ==> IsDigit(s[i]) || s[i] == '_')
    && (forall i :: 0 <= i < |s| - 1 ==> s[i] == '_' ==> s[i + 1] != '_')
  }

  function DigitValue(c: char): nat
    requires IsDigit(c)
  {
    c as int - '0' as int
  }

  /** The decimal value of the digits of `s`, underscores skipped. */
  function DigitsValue(s: string): nat
    requires forall i :: 0 <= i < |s| ==> IsDigit(s[i]) || s[i] == '_'
  {
    if s == [] then 0
    else if s[|s| - 1] == '_' then DigitsValue(s[..|s| - 1])
    else DigitsValue(s[..|s| - 1]) * 10 + DigitValue(s[|s| - 1])
  }

  /** The interpreter's limit on the number of digits `int()` converts
      (`sys.get_int_max_str_digits()`). CPython 3.11 and later, and the security releases
      3.7.14, 3.8.14, 3.9.14 and 3.10.7, default to 4300 digits. Earlier versions have none,
      and neither has a limit set to 0: `AtMost(0)` admits every count, like `Unlimited`. */
  datatype DigitLimit = Unlimited | AtMost(digits: nat)

  const DefaultLimit: DigitLimit := AtMost(4300)

  /** Up to this many digits the limit is not consulted at all. */
  const LimitThreshold: nat := 640

  /** The number of digits in `s`, underscores not counted: the length `int()` measures. */
  function DigitCount(s: string): (n: nat)
    ensures n <= |s|
    ensures n == 0 <==> forall k :: 0 <= k < |s| ==> s[k] == '_'
  {
    if s == [] then 0 else DigitCount(s[..|s| - 1]) + (if s[|s| - 1] == '_' then 0 else 1)
  }

  /** `int()` converts a literal of `count` digits under `limit`. */
  function Admits(limit: DigitLimit, count: nat): (ok: bool)
    ensures count <= LimitThreshold ==> ok
    ensures limit == DefaultLimit ==> (ok <==> count <= 4300)
    ensures limit == Unlimited || limit == AtMost(0) ==> ok
  {
    limit.Unlimited? || limit.digits == 0 || count <= LimitThreshold || count <= limit.digits
  }

  /** 10 to the power `n`. */
  function Pow10(n: nat): (p: nat)
    ensures p >= 1
  {
    if n == 0 then 1 else 10 * Pow10(n - 1)
  }

  /** A literal's value is below 10 to the number of its digits: underscores add nothing. */
  lemma {:induction false} DigitsValueBound(s: string)
    requires forall i :: 0 <= i < |s| ==> IsDigit(s[i]) || s[i] == '_'
    ensures DigitsValue(s) < Pow10(DigitCount(s))
    decreases |s|
  {
    if s != [] {
      var p := s[..|s| - 1];
      assert forall i :: 0 <= i < |p| ==> p[i] == s[i];
      DigitsValueBound(p);
      if s[|s| - 1] != '_' {
        var v := DigitsValue(p);
        assert v + 1 <= Pow10(DigitCount(p));
        assert DigitsValue(s) == v * 10 + DigitValue(s[|s| - 1]);
        assert (v + 1) * 10 <= Pow10(DigitCount(p)) * 10;
      }
    }
  }

  lemma {:induction false} DigitCountAppend(x: string, y: string)
    ensures DigitCount(x + y) == DigitCount(x) + DigitCount(y)
    decreases |y|
  {
    if y == [] {
      assert x + y == x;
    } else {
      DigitCountAppend(x, y[..|y| - 1]);
      assert (x + y)[..|x + y| - 1] == x + y[..|y| - 1];
    }
  }

  lemma {:induction false} DigitCountOfDigits(t: string)
    requires AllDigits(t)
    ensures DigitCount(t) == |t|
  {
    if t != [] {
      var p := t[..|t| - 1];
      assert forall i :: 0 <= i < |p| ==> p[i] == t[i];
      DigitCountOfDigits(p);
    }
  }

  /** The unsigned part of an integer literal: well grouped, and within the digit limit. */
  function ParseUnsigned(s: string, limit: DigitLimit): (r: Option<nat>)
    ensures r.Some? <==> WellGrouped(s) && Admits(limit, DigitCount(s))
    ensures r.Some? ==> r.value < Pow10(DigitCount(s))
  {
    if WellGrouped(s) && Admits(limit, DigitCount(s)) then
      DigitsValueBound(s);
      Some(DigitsValue(s))
    else None
  }

  /** The length of the optional '+' or '-' at the start of `s`. */
  function SignLength(s: string): (k: nat)
    ensures k <= |s|
    ensures k == 1 <==> |s| > 0 && (s[0] == '+' || s[0] == '-')
  {
    if |s| > 0 && (s[0] == '+' || s[0] == '-') then 1 else 0
  }

  /** An optional sign, then an unsigned literal: the text `int()` converts once the
      surrounding whitespace is gone. */
  function ParseTrimmed(s: string, limit: DigitLimit): (r: Option<int>)
    ensures s == [] ==> r == None
    ensures r.Some? && s[0] == '-' ==> r.value <= 0
    ensures r.Some? && s[0] != '-' ==> r.value >= 0
  {
    match ParseUnsigned(s[SignLength(s)..], limit)
    case None => None
    case Some(v) => Some(if SignLength(s) == 1 && s[0] == '-' then -(v as int) else v)
  }

  /** Python's `int(text)` in base 10, on ASCII text: surrounding whitespace, then an optional
      sign, then underscore-grouped digits, as many as `limit` admits; anything else raises
      ValueError (None here). */
  function ParseInt(t: string, limit: DigitLimit): (r: Option<int>)
    ensures Strip(t) == [] ==> r == None
    ensures r.Some? && Strip(t)[0] == '-' ==> r.value <= 0
    ensures r.Some? && Strip(t)[0] != '-' ==> r.value >= 0
  {
    ParseTrimmed(Strip(t), limit)
  }

  /** A limit of 0 is no limit: every text converts exactly as it would without one. */
  lemma ZeroLimitIsNoLimit(t: string)
    ensures ParseInt(t, AtMost(0)) == ParseInt(t, Unlimited)
  {
  }

  /** The decimal digits of `n`, as `str(n)` writes them. */
  function Render(n: nat): (t: string)
    ensures |t| > 0 && AllDigits(t)
    decreases n
  {
    var last := ['0' + (n % 10) as char];
    if n < 10 then last else Render(n / 10) + last
  }

  /** `str` of any integer. */
  function RenderInt(n: int): string
  {
    if n < 0 then ['-'] + Render(-n) else Render(n)
  }

  lemma {:induction false} RenderValue(n: nat)
    ensures DigitsValue(Render(n)) == n
    decreases n
  {
    var t := Render(n);
    if n >= 10 {
      RenderValue(n / 10);
      assert t[..|t| - 1] == Render(n / 10);
    }
  }

  /** Text without surrounding whitespace is left alone by stripping. */
  lemma StripKeepsTrimmed(t: string)
    requires |t| > 0 && !IsSpace(t[0]) && !IsSpace(t[|t| - 1])
    ensures Strip(t) == t
  {
  }

  /** Digits alone are a well-grouped literal. */
  lemma DigitsAreWellGrouped(t: string)
    requires |t| > 0 && AllDigits(t)
    ensures WellGrouped(t)
  {
  }

  /** Non-empty all-digit text parses to its decimal value when the limit admits its length,
      and raises otherwise. */
  lemma {:induction false} ParseDigits(t: string, limit: DigitLimit)
    requires |t| > 0 && AllDigits(t)
    ensures Admits(limit, |t|) ==> ParseInt(t, limit) == Some(DigitsValue(t))
    ensures !Admits(limit, |t|) ==> ParseInt(t, limit) == None
  {
    StripKeepsTrimmed(t);
    DigitsAreWellGrouped(t);
    DigitCountOfDigits(t);
    assert t[0] != '+' && t[0] != '-';
  }

  /** A minus sign followed by digits parses to the negated value, within the limit. */
  lemma {:induction false} NegativeDigits(d: string, limit: DigitLimit)
    requires |d| > 0 && AllDigits(d)
    ensures Admits(limit, |d|) ==> ParseTrimmed(['-'] + d, limit) == Some(-(DigitsValue(d) as int))
    ensures !Admits(limit, |d|) ==> ParseTrimmed(['-'] + d, limit) == None
  {
    DigitsAreWellGrouped(d);
    DigitCountOfDigits(d);
    assert (['-'] + d)[1..] == d;
  }

  lemma {:induction false} ParseNegative(d: string, limit: DigitLimit)
    requires |d| > 0 && AllDigits(d)
    ensures Admits(limit, |d|) ==> ParseInt(['-'] + d, limit) == Some(-(DigitsValue(d) as int))
    ensures !Admits(limit, |d|) ==> ParseInt(['-'] + d, limit) == None
  {
    var t := ['-'] + d;
    assert t[0] == '-' && t[|t| - 1] == d[|d| - 1];
    StripKeepsTrimmed(t);
    NegativeDigits(d, limit);
  }

  /** The number of decimal digits `str(n)` writes for `n`, sign excluded. */
  function Width(n: int): nat
  {
    if n < 0 then |Render(-n)| else |Render(n)|
  }

  /** `int(str(n)) == n` for every integer whose digits the limit admits; without a limit, for
      every integer. Longer renderings raise. */
  lemma {:induction false} ParseRendered(n: int, limit: DigitLimit)
    ensures Admits(limit, Width(n)) ==> ParseInt(RenderInt(n), limit) == Some(n)
    ensures !Admits(limit, Width(n)) ==> ParseInt(RenderInt(n), limit) == None
  {
    if n < 0 {
      var d := Render(-n);
      assert RenderInt(n) == ['-'] + d && Width(n) == |d|;
      RenderValue(-n);
      ParseNegative(d, limit);
    } else {
      var d := Render(n);
      assert RenderInt(n) == d && Width(n) == |d|;
      RenderValue(n);
      ParseDigits(d, limit);
    }
  }

  /** Python accepts surrounding whitespace, ... */
  lemma ParseSurroundingSpace(limit: DigitLimit)
    ensures ParseInt(" 7\n", limit) == Some(7)
  {
    assert StripLeading(" 7\n") == "7\n";
    assert StripTrailing("7\n") == "7";
    assert DigitCount("7") == 1;
  }

  /** A file separator before the number is not whitespace to `int()`, so the text does not
      parse. */
  lemma SeparatorIsNotSpace(limit: DigitLimit)
    ensures ParseInt("\U{001C}7", limit) == None
  {
    assert !IsSpace('\U{001C}');
    assert StripLeading("\U{001C}7") == "\U{001C}7";
  }

  lemma {:induction false} UnderscoreValue(a: string, b: string)
    requires AllDigits(a) && AllDigits(b)
    ensures DigitsValue(a + ['_'] + b) == DigitsValue(a + b)
    decreases |b|
  {
    var t := a + ['_'] + b;
    if b == [] {
      assert t[..|t| - 1] == a && a + b == a;
    } else {
      var b' := b[..|b| - 1];
      assert t[..|t| - 1] == a + ['_'] + b';
      assert (a + b)[..|a + b| - 1] == a + b';
      UnderscoreValue(a, b');
    }
  }

  /** Digits, one underscore, digits: a well-grouped literal whose underscore is not counted. */
  lemma {:induction false} UnderscoreGrouped(a: string, b: string)
    requires |a| > 0 && |b| > 0 && AllDigits(a) && AllDigits(b)
    ensures WellGrouped(a + ['_'] + b)
    ensures DigitCount(a + ['_'] + b) == DigitCount(a) + DigitCount(b)
  {
    var t := a + ['_'] + b;
    forall i | 0 <= i < |t| - 1 && t[i] == '_'
      ensures t[i + 1] != '_'
    {
      assert i == |a| && t[i + 1] == b[0];
    }
    DigitCountAppend(a + ['_'], b);
    DigitCountAppend(a, ['_']);
    assert DigitCount(['_']) == 0;
  }

  /** ... and single underscores between digits, which do not change the value, ... */
  lemma {:induction false} UnderscoreIgnored(a: string, b: string, limit: DigitLimit)
    requires |a| > 0 && |b| > 0 && AllDigits(a) && AllDigits(b)
    ensures ParseInt(a + ['_'] + b, limit) == ParseInt(a + b, limit)
    ensures Admits(limit, |a| + |b|) ==> ParseInt(a + b, limit) == Some(DigitsValue(a + b))
  {
    var t := a + ['_'] + b;
    UnderscoreGrouped(a, b);
    UnderscoreValue(a, b);
    DigitCountOfDigits(a);
    DigitCountOfDigits(b);
    ParseDigits(a + b, limit);
    assert t[0] == a[0] && t[|t| - 1] == b[|b| - 1];
    StripKeepsTrimmed(t);
    assert SignLength(t) == 0 && t[0..] == t;
    var r := ParseInt(t, limit);
    assert r == ParseTrimmed(t, limit);
    assert r.Some? <==> Admits(limit, |a| + |b|);
    if r.Some? {
      var x := DigitsValue(a + b) as int;
      assert r.value == x;
      assert r == Some(r.value);
      assert r == Some(x);
    } else {
      assert r == None;
    }
  }

  /** ... but refuses two underscores in a row anywhere in the text. */
  lemma {:induction false} DoubleUnderscoreFails(t: string, i: nat, limit: DigitLimit)
    requires i + 1 < |t| && t[i] == '_' && t[i + 1] == '_'
    ensures ParseInt(t, limit) == None
  {
    var l := StripLeading(t);
    var s := StripTrailing(l);
    var a := |t| - |l|;
    assert !IsSpace(t[i]) && !IsSpace(t[i + 1]);
    assert a <= i;
    assert t[i + 1] == l[i + 1 - a];
    assert i + 1 - a < |s|;
    assert s[i - a] == '_' && s[i - a + 1] == '_';
    if i - a >= 1 {
      assert s[1..][i - a - 1] == '_' && s[1..][i - a] == '_';
    }
  }

  // ---------------------------------------------------------------------------------------
  // Concluding the video dialog
  // ---------------------------------------------------------------------------------------

  /** The input a video is read from: a file path or a capture device index. */
  datatype Video = File(path: string) | Device(index: int)

  /** The error message box `_concluir` shows. */
  datatype Complaint = NoFileChosen | InvalidDevice | NoDeviceGiven

  /** Either a video is chosen and the dialog closes, or an error box is shown and the dialog
      stays open with no video. */
  datatype Conclusion = Chosen(video: Video) | Complained(complaint: Complaint)

  /** `_concluir`, given the radio button's value (0 for a file), the two text variables and
      the interpreter's digit limit. */
  function Conclude(mode: int, fileText: string, deviceText: string, limit: DigitLimit): (c: Conclusion)
    ensures mode == 0 ==> (c.Chosen? <==> |fileText| > 0)
    ensures mode == 0 && c.Chosen? ==> c.video == File(fileText)
    ensures mode != 0 ==> (c.Chosen? <==> ParseInt(deviceText, limit).Some?)
    ensures mode != 0 && c.Chosen? ==> c.video == Device(ParseInt(deviceText, limit).value)
    ensures mode != 0 && |deviceText| == 0 ==> c == Complained(NoDeviceGiven)
  {
    if mode == 0 then
      if |fileText| > 0 then Chosen(File(fileText)) else Complained(NoFileChosen)
    else if |deviceText| > 0 then
      match ParseInt(deviceText, limit)
      case Some(v) => Chosen(Device(v))
      case None => Complained(InvalidDevice)
    else Complained(NoDeviceGiven)
  }

  /** ASCII text that got past the key validator is either empty, which only complains, or
      yields a non-negative device index, unless it has more digits than the interpreter's
      limit admits: only then does the "invalid device" box appear for such text. */
  lemma {:induction false} ValidatedDeviceConcludes(fileText: string, deviceText: string, limit: DigitLimit)
    requires AcceptsDeviceText(deviceText)
    ensures |deviceText| == 0 ==> Conclude(1, fileText, deviceText, limit) == Complained(NoDeviceGiven)
    ensures |deviceText| > 0 && Admits(limit, |deviceText|) ==>
      Conclude(1, fileText, deviceText, limit) == Chosen(Device(DigitsValue(deviceText)))
    ensures |deviceText| > 0 && !Admits(limit, |deviceText|) ==>
      Conclude(1, fileText, deviceText, limit) == Complained(InvalidDevice)
  {
    if |deviceText| > 0 {
      ParseDigits(deviceText, limit);
    }
  }

  /** With the default limit, a device index typed with more than 4300 digits passes the key
      validator and then brings up the "invalid device" box. */
  lemma LongDeviceTextComplains(fileText: string, deviceText: string)
    requires |deviceText| > 4300 && AllDigits(deviceText)
    ensures AcceptsDeviceText(deviceText)
    ensures Conclude(1, fileText, deviceText, DefaultLimit) == Complained(InvalidDevice)
  {
    ValidatedDeviceConcludes(fileText, deviceText, DefaultLimit);
  }
}

=== FILE: hysteresis.dfy ===
/** The two-state repetition counter shared by both push-up counters: a count and an `armed`
    flag (the source's `contador` and `check`). A sample below the low threshold completes a
    repetition when armed and disarms; a sample past the high threshold re-arms. */
module Hysteresis {

  /** `contador` and `check`. */
  datatype Counter = Counter(count: nat, armed: bool)

  /** The state every counting session starts in: no repetitions, armed. */
  const Start: Counter := Counter(0, true)

  /** Where one frame's sample falls: past the completion threshold, past the re-arming
      threshold, or anywhere else (including frames that yield no usable sample). */
  datatype Zone = Low | High | Band

  /** One frame of the state machine. */
  function Advance(s: Counter, z: Zone): (t: Counter)
    ensures t.count == s.count || t.count == s.count + 1
    ensures t.count == s.count + 1 <==> s.armed && z == Low
    ensures t.armed <==> z == High || (s.armed && z != Low)
  {
    match z
    case Low => if s.armed then Counter(s.count + 1, false) else s
    case High => Counter(s.count, true)
    case Band => s
  }

  /** The state after feeding the frames `zs`, in order, starting from `s`. */
  function Run(s: Counter, zs: seq<Zone>): Counter
  {
    if zs == [] then s else Advance(Run(s, zs[..|zs| - 1]), zs[|zs| - 1])
  }

  /** Reference for the flag: armed after `zs` exactly when the last frame outside the band
      was a High one, or there was none. */
  function ArmedAfter(zs: seq<Zone>): bool
  {
    if zs == [] then true
    else if zs[|zs| - 1] == Band then ArmedAfter(zs[..|zs| - 1])
    else zs[|zs| - 1] == High
  }

  /** Frame `i` completes a repetition: it is Low and the frames before it leave the counter
      armed. */
  predicate Completes(zs: seq<Zone>, i: int)
    requires 0 <= i < |zs|
  {
    zs[i] == Low && ArmedAfter(zs[..i])
  }

  /** Reference for the count: the number of frames that complete a repetition. */
  function Completions(zs: seq<Zone>): nat
  {
    if zs == [] then 0
    else Completions(zs[..|zs| - 1]) + (if Completes(zs, |zs| - 1) then 1 else 0)
  }

  /** The state machine computes the reference count and flag. */
  lemma {:induction false} RunMatchesReference(zs: seq<Zone>)
    ensures Run(Start, zs) == Counter(Completions(zs), ArmedAfter(zs))
  {
    if zs != [] {
      var p := zs[..|zs| - 1];
      RunMatchesReference(p);
      assert zs[..|zs| - 1] == p;
    }
  }

  /** Frame `i` adds one to the count exactly when it completes a repetition. */
  lemma IncrementIffCompletes(zs: seq<Zone>, i: nat)
    requires i < |zs|
    ensures Run(Start, zs[..i + 1]).count == Run(Start, zs[..i]).count + 1 <==> Completes(zs, i)
    ensures Run(Start, zs[..i + 1]).count <= Run(Start, zs[..i]).count + 1
  {
    var p := zs[..i + 1];
    assert p[..|p| - 1] == zs[..i];
    assert p[|p| - 1] == zs[i];
    RunMatchesReference(zs[..i]);
  }

  /** The count never decreases and grows by at most one per frame. */
  lemma {:induction false} CountMonotone(s: Counter, zs: seq<Zone>, i: nat, j: nat)
    requires i <= j <= |zs|
    ensures Run(s, zs[..i]).count <= Run(s, zs[..j]).count <= Run(s, zs[..i]).count + (j - i)
    decreases j - i
  {
    if i < j {
      CountMonotone(s, zs, i, j - 1);
      var p := zs[..j];
      assert p[..|p| - 1] == zs[..j - 1];
    }
  }

  /** If the counter is armed after `xs` then every Low frame in `xs` is followed, later in
      `xs`, by a High frame. */
  lemma {:induction false} ArmedAfterLowNeedsHigh(xs: seq<Zone>, a: nat)
    requires a < |xs| && xs[a] == Low && ArmedAfter(xs)
    ensures exists m :: a < m < |xs| && xs[m] == High
  {
    var n := |xs|;
    if xs[n - 1] == Band {
      var p := xs[..n - 1];
      assert p[a] == Low;
      ArmedAfterLowNeedsHigh(p, a);
      var m :| a < m < |p| && p[m] == High;
      assert xs[m] == High;
    } else {
      assert xs[n - 1] == High;
    }
  }

  /** No double counting: between two frames that each complete a repetition there is a High
      frame that re-armed the counter. */
  lemma BetweenCompletions(zs: seq<Zone>, a: nat, b: nat)
    requires a < b < |zs| && Completes(zs, a) && Completes(zs, b)
    ensures exists m :: a < m < b && zs[m] == High
  {
    var p := zs[..b];
    assert p[a] == Low;
    ArmedAfterLowNeedsHigh(p, a);
    var m :| a < m < |p| && p[m] == High;
    assert zs[m] == High;
  }

  /** Without a single High frame the count never exceeds one, however often the samples dip
      below the low threshold. */
  lemma {:induction false} WithoutHighAtMostOne(zs: seq<Zone>)
    requires forall i :: 0 <= i < |zs| ==> zs[i] != High
    ensures Run(Start, zs) == Start || Run(Start, zs) == Counter(1, false)
  {
    if zs != [] {
      var p := zs[..|zs| - 1];
      assert forall i :: 0 <= i < |p| ==> p[i] == zs[i];
      WithoutHighAtMostOne(p);
      assert zs[|zs| - 1] != High;
    }
  }

  /** The frames of `xs` that `keep` accepts, in their original order. With `KeepAppend` this
      pins the result down: order is kept, and one frame is kept exactly when `keep` holds. */
  function Keep<T>(xs: seq<T>, keep: T -> bool): (r: seq<T>)
    ensures |r| <= |xs|
    ensures forall i :: 0 <= i < |r| ==> r[i] in xs && keep(r[i])
    ensures forall i :: 0 <= i < |xs| && keep(xs[i]) ==> xs[i] in r
    ensures (forall i :: 0 <= i < |xs| ==> keep(xs[i])) ==> r == xs
  {
    if xs == [] then []
    else if keep(xs[|xs| - 1]) then Keep(xs[..|xs| - 1], keep) + [xs[|xs| - 1]]
    else Keep(xs[..|xs| - 1], keep)
  }

  /** Filtering distributes over concatenation, so the kept frames keep their order. */
  lemma {:induction false} KeepAppend<T>(xs: seq<T>, ys: seq<T>, keep: T -> bool)
    ensures Keep(xs + ys, keep) == Keep(xs, keep) + Keep(ys, keep)
    decreases |ys|
  {
    if ys == [] {
      assert xs + ys == xs;
    } else {
      var q := ys[..|ys| - 1];
      KeepAppend(xs, q, keep);
      assert (xs + ys)[..|xs + ys| - 1] == xs + q;
      assert (xs + ys)[|xs + ys| - 1] == ys[|ys| - 1];
    }
  }

  /** A frame outside the band: one that can change the state. */
  predicate Decisive(z: Zone)
  {
    z != Band
  }

  /** Frames in the band can be dropped without changing anything. */
  lemma {:induction false} BandIsInvisible(s: Counter, zs: seq<Zone>)
    ensures Run(s, zs) == Run(s, Keep(zs, Decisive))
  {
    if zs != [] {
      var p := zs[..|zs| - 1];
      BandIsInvisible(s, p);
      if zs[|zs| - 1] != Band {
        var q := Keep(p, Decisive) + [zs[|zs| - 1]];
        assert q[..|q| - 1] == Keep(p, Decisive);
      }
    }
  }

  /** The frame loop of both push-up counters: the state after the per-frame update `step` has
      seen the frames `xs`, in order, starting from `s`. */
  function Feed<T>(step: (Counter, T) -> Counter, s: Counter, xs: seq<T>): Counter
  {
    if xs == [] then s else step(Feed(step, s, xs[..|xs| - 1]), xs[|xs| - 1])
  }

  /** The loop reads its frames front to back: the first frame updates the starting state,
      and the rest of the loop continues from there. */
  lemma {:induction false} FeedFirst<T>(step: (Counter, T) -> Counter, s: Counter, xs: seq<T>)
    ensures xs != [] ==> Feed(step, s, xs) == Feed(step, step(s, xs[0]), xs[1..])
    decreases |xs|
  {
    if |xs| == 1 {
      assert xs[1..] == [] && xs[..0] == [];
    } else if |xs| > 1 {
      var p := xs[..|xs| - 1];
      FeedFirst(step, s, p);
      assert p[0] == xs[0] && p[1..] == xs[1..][..|xs| - 2];
    }
  }

  /** Feeding two stretches of frames one after the other is feeding their concatenation: the
      loop keeps no state besides the counter. */
  lemma {:induction false} FeedAppend<T>(step: (Counter, T) -> Counter, s: Counter, xs: seq<T>, ys: seq<T>)
    ensures Feed(step, s, xs + ys) == Feed(step, Feed(step, s, xs), ys)
    decreases |ys|
  {
    if ys == [] {
      assert xs + ys == xs;
    } else {
      FeedAppend(step, s, xs, ys[..|ys| - 1]);
      assert (xs + ys)[..|xs + ys| - 1] == xs + ys[..|ys| - 1];
    }
  }

  /** The zone of every frame. */
  function Zones<T>(zone: T -> Zone, xs: seq<T>): (zs: seq<Zone>)
    ensures |zs| == |xs| && forall i :: 0 <= i < |xs| ==> zs[i] == zone(xs[i])
  {
    seq(|xs|, i requires 0 <= i < |xs| => zone(xs[i]))
  }

  /** `step` is the two-threshold step on the zones that `zone` assigns to frames. */
  ghost predicate Classifies<T(!new)>(step: (Counter, T) -> Counter, zone: T -> Zone)
  {
    forall s: Counter, x: T :: step(s, x) == Advance(s, zone(x))
  }

  /** Feeding frames through a classified step is running the machine on their zones. */
  lemma {:induction false} FeedIsRun<T(!new)>(step: (Counter, T) -> Counter, zone: T -> Zone, s: Counter, xs: seq<T>)
    requires Classifies(step, zone)
    ensures Feed(step, s, xs) == Run(s, Zones(zone, xs))
  {
    if xs != [] {
      var p := xs[..|xs| - 1];
      FeedIsRun(step, zone, s, p);
      assert Zones(zone, xs)[..|xs| - 1] == Zones(zone, p);
    }
  }

  /** From the start state, the count is the number of completing frames and the flag is the
      reference flag. */
  lemma FeedMatchesReference<T(!new)>(step: (Counter, T) -> Counter, zone: T -> Zone, xs: seq<T>)
    requires Classifies(step, zone)
    ensures Feed(step, Start, xs) == Counter(Completions(Zones(zone, xs)), ArmedAfter(Zones(zone, xs)))
  {
    FeedIsRun(step, zone, Start, xs);
    RunMatchesReference(Zones(zone, xs));
  }

  lemma FeedCountMonotone<T(!new)>(step: (Counter, T) -> Counter, zone: T -> Zone, xs: seq<T>, i: nat, j: nat)
    requires Classifies(step, zone)
    requires i <= j <= |xs|
    ensures Feed(step, Start, xs[..i]).count <= Feed(step, Start, xs[..j]).count
    ensures Feed(step, Start, xs[..j]).count <= Feed(step, Start, xs[..i]).count + (j - i)
  {
    FeedIsRun(step, zone, Start, xs[..i]);
    FeedIsRun(step, zone, Start, xs[..j]);
    assert Zones(zone, xs[..i]) == Zones(zone, xs)[..i];
    assert Zones(zone, xs[..j]) == Zones(zone, xs)[..j];
    CountMonotone(Start, Zones(zone, xs), i, j);
  }

  /** Frame `i` of `xs` adds a repetition to the count. */
  predicate Counted<T>(step: (Counter, T) -> Counter, xs: seq<T>, i: nat)
    requires i < |xs|
  {
    Feed(step, Start, xs[..i + 1]).count == Feed(step, Start, xs[..i]).count + 1
  }

  lemma FeedCountedIffCompletes<T(!new)>(step: (Counter, T) -> Counter, zone: T -> Zone, xs: seq<T>, i: nat)
    requires Classifies(step, zone)
    requires i < |xs|
    ensures Counted(step, xs, i) <==> Completes(Zones(zone, xs), i)
  {
    FeedIsRun(step, zone, Start, xs[..i]);
    FeedIsRun(step, zone, Start, xs[..i + 1]);
    assert Zones(zone, xs[..i]) == Zones(zone, xs)[..i];
    assert Zones(zone, xs[..i + 1]) == Zones(zone, xs)[..i + 1];
    IncrementIffCompletes(Zones(zone, xs), i);
  }

  /** Between two counted frames lies a frame in the High zone. */
  lemma FeedNoDoubleCount<T(!new)>(step: (Counter, T) -> Counter, zone: T -> Zone, xs: seq<T>, a: nat, b: nat)
    requires Classifies(step, zone)
    requires a < b < |xs| && Counted(step, xs, a) && Counted(step, xs, b)
    ensures exists m :: a < m < b && zone(xs[m]) == High
  {
    FeedCountedIffCompletes(step, zone, xs, a);
    FeedCountedIffCompletes(step, zone, xs, b);
    BetweenCompletions(Zones(zone, xs), a, b);
    var m :| a < m < b && Zones(zone, xs)[m] == High;
    assert zone(xs[m]) == High;
  }

  lemma FeedWithoutHighAtMostOne<T(!new)>(step: (Counter, T) -> Counter, zone: T -> Zone, xs: seq<T>)
    requires Classifies(step, zone)
    requires forall i :: 0 <= i < |xs| ==> zone(xs[i]) != High
    ensures Feed(step, Start, xs).count <= 1
  {
    FeedIsRun(step, zone, Start, xs);
    WithoutHighAtMostOne(Zones(zone, xs));
  }

  /** Frames that `step` ignores can be dropped, wherever they occur. */
  lemma {:induction false} SkippedInvisible<T>(step: (Counter, T) -> Counter, keep: T -> bool, s: Counter, xs: seq<T>)
    requires forall c: Counter, x: T :: !keep(x) ==> step(c, x) == c
    ensures Feed(step, s, xs) == Feed(step, s, Keep(xs, keep))
  {
    if xs != [] {
      var p := xs[..|xs| - 1];
      SkippedInvisible(step, keep, s, p);
      if keep(xs[|xs| - 1]) {
        var q := Keep(p, keep) + [xs[|xs| - 1]];
        assert q[..|q| - 1] == Keep(p, keep);
      }
    }
  }
}

=== FILE: images.dfy ===
/** Images as the filter module sees them (cntexercicios/filtros.py): numpy arrays of rank 2
    (height x width) or rank 3 (height x width x channels), and the two mirroring filters. */
module Images {
  import opened Base

  /** An array handed to the filters. `ndim` is its rank. For ranks 2 and 3 the contents are
      `px[row][col][channel]`; a rank-2 array keeps a single element per cell (depth 1) so that
      both ranks share one representation. Arrays of any other rank carry no contents here. */
  datatype Image = Image(ndim: nat, height: nat, width: nat, depth: nat, px: seq<seq<seq<int>>>)

  /** Why a filter raised. */
  datatype Fault =
    | BadImageRank       // the image is not of a supported rank
    | SizeNotSequence    // `tamanho` is neither None nor a list or tuple
    | BadSize            // `tamanho` is not two non-negative ints
    | CannotBroadcast    // numpy could not broadcast one array into another
    | BadKernelRank      // the kernel is not two-dimensional
    | EmptyKernelAxis    // the kernel has an axis of length zero
    | BadKernelType      // the kernel elements are neither integers nor floats
    | NegativeDimension  // numpy was asked for an array with a negative dimension
  {
    /** The Python exception class carrying this fault. */
    function Raises(): PyException
    {
      if this == SizeNotSequence then TypeError else ValueError
    }
  }

  /** A well-formed array of rank 2 or 3: every row and cell has the recorded length. */
  predicate IsImage(a: Image)
  {
    && (a.ndim == 2 || a.ndim == 3)
    && (a.ndim == 2 ==> a.depth == 1)
    && |a.px| == a.height
    && (forall r :: 0 <= r < a.height ==> |a.px[r]| == a.width)
    && (forall r, c :: 0 <= r < a.height && 0 <= c < a.width ==> |a.px[r][c]| == a.depth)
  }

  /** Any array the filters may receive: of rank 2 or 3 it must be well formed. */
  predicate Valid(a: Image)
  {
    (a.ndim == 2 || a.ndim == 3) ==> IsImage(a)
  }

  /** Two images with the same rank and shape. */
  predicate SameShape(a: Image, b: Image)
  {
    a.ndim == b.ndim && a.height == b.height && a.width == b.width && a.depth == b.depth
  }

  /** Every element fits the 8-bit unsigned channel type of a video frame. */
  predicate IsBytes(a: Image)
    requires IsImage(a)
  {
    forall r, c, k :: 0 <= r < a.height && 0 <= c < a.width && 0 <= k < a.depth ==>
      0 <= a.px[r][c][k] < 256
  }

  /** The image extended with zeros in every direction: the element at (i, j, k) when that
      position lies inside the image, and 0 everywhere else. */
  function At(a: Image, i: int, j: int, k: int): int
  {
    if 0 <= i < |a.px| && 0 <= j < |a.px[i]| && 0 <= k < |a.px[i][j]| then a.px[i][j][k] else 0
  }

  /** `k` zeros. */
  function Zeros(k: nat): (z: seq<int>)
    ensures |z| == k && forall i :: 0 <= i < k ==> z[i] == 0
  {
    if k == 0 then [] else Zeros(k - 1) + [0]
  }

  /** The slice `s[::-1]`. */
  function Reverse<T>(s: seq<T>): (r: seq<T>)
    ensures |r| == |s|
    ensures forall i :: 0 <= i < |s| ==> r[i] == s[|s| - 1 - i]
  {
    if s == [] then [] else Reverse(s[1..]) + [s[0]]
  }

  lemma ReverseTwice<T>(s: seq<T>)
    ensures Reverse(Reverse(s)) == s
  {
    var t := Reverse(Reverse(s));
    assert forall i :: 0 <= i < |s| ==> t[i] == s[i];
  }

  /** `espelhamento_vertical`: `imagem[::-1, ...]` reverses the first axis, so the top row
      becomes the bottom row. */
  function MirrorVertical(a: Image): (m: Image)
    requires IsImage(a)
    ensures IsImage(m) && SameShape(m, a)
    ensures forall r, c, k :: 0 <= r < a.height && 0 <= c < a.width && 0 <= k < a.depth ==>
      m.px[r][c][k] == a.px[a.height - 1 - r][c][k]
  {
    a.(px := Reverse(a.px))
  }

  /** `espelhamento_horizontal`: `imagem[..., ::-1]` reverses the LAST axis. For a rank-2
      image that swaps left and right; for a height x width x channels image it reverses the
      channel order of every pixel and leaves the columns where they are. */
  function MirrorHorizontal(a: Image): (m: Image)
    requires IsImage(a)
    ensures IsImage(m) && SameShape(m, a)
    ensures a.ndim == 2 ==> forall r, c :: 0 <= r < a.height && 0 <= c < a.width ==>
      m.px[r][c] == a.px[r][a.width - 1 - c]
    ensures a.ndim == 3 ==> forall r, c, k :: 0 <= r < a.height && 0 <= c < a.width && 0 <= k < a.depth ==>
      m.px[r][c][k] == a.px[r][c][a.depth - 1 - k]
  {
    if a.ndim == 2 then
      a.(px := seq(a.height, r requires 0 <= r < a.height => Reverse(a.px[r])))
    else
      a.(px := seq(a.height, r requires 0 <= r < a.height =>
                 seq(a.width, c requires 0 <= c < a.width => Reverse(a.px[r][c]))))
  }

  /** Mirroring vertically twice gives back the original image. */
  lemma MirrorVerticalTwice(a: Image)
    requires IsImage(a)
    ensures MirrorVertical(MirrorVertical(a)) == a
  {
    ReverseTwice(a.px);
  }

  /** Mirroring horizontally twice gives back the original image, for both ranks. */
  lemma MirrorHorizontalTwice(a: Image)
    requires IsImage(a)
    ensures MirrorHorizontal(MirrorHorizontal(a)) == a
  {
    var m := MirrorHorizontal(MirrorHorizontal(a));
    forall r | 0 <= r < a.height
      ensures m.px[r] == a.px[r]
    {
      if a.ndim == 2 {
        ReverseTwice(a.px[r]);
      } else {
        forall c | 0 <= c < a.width
          ensures m.px[r][c] == a.px[r][c]
        {
          ReverseTwice(a.px[r][c]);
        }
      }
    }
  }
}

=== FILE: padding.dfy ===
/** `estender_com_zeros` (cntexercicios/filtros.py): surround an image with a border of zeros. */
module Padding {
  import opened Base
  import opened Images

  /** One entry of the `tamanho` argument: a Python int (a bool is an int to Python and passes
      as 0 or 1) or a value of any other type. */
  datatype Entry = Int(n: int) | NotInt

  /** The `tamanho` argument: None, a list or tuple of entries, or a value of another type. */
  datatype SizeArg = Default | Items(items: seq<Entry>) | OtherType

  /** The contents of the uninitialised buffer `np.empty` returns, at (row, column, channel):
      whatever the allocator hands back, which the caller cannot choose. */
  type Junk = (int, int, int) -> int

  /** Decodes `tamanho` into the border widths (dx along the rows, dy along the columns). */
  function BorderWidths(size: SizeArg): (r: Result<(nat, nat), Fault>)
    ensures size.Default? ==> r == Ok((1, 1))
    ensures size.OtherType? ==> r == Err(SizeNotSequence)
    ensures size.Items? ==>
      (r.Ok? <==> |size.items| == 2 && forall e :: e in size.items ==> e.Int? && e.n >= 0)
    ensures size.Items? && r.Ok? ==> r.value == (size.items[0].n, size.items[1].n)
    ensures r.Err? ==> r.error.Raises() == (if size.OtherType? then TypeError else ValueError)
  {
    match size
    case Default => Ok((1, 1))
    case OtherType => Err(SizeNotSequence)
    case Items(items) =>
      if |items| != 2 || exists e :: e in items && (e.NotInt? || e.n < 0) then Err(BadSize)
      else Ok((items[0].n, items[1].n))
  }

  /** Whether `estendida[d:-d] = imagem` can broadcast along an axis of length n. For d >= 1
      the slice has exactly n entries. For d == 0 the slice `0:-0` is empty, and numpy only
      broadcasts an axis of length 0 or 1 into it. */
  predicate CopyFits(d: nat, n: nat)
  {
    d >= 1 || n <= 1
  }

  /** Whether (r, c) of the extended buffer lies in one of the zeroed border rows or columns
      (`range(d)` and `range(-d, 0)`). */
  predicate OnBorder(a: Image, dx: nat, dy: nat, r: int, c: int)
  {
    r < dx || r >= a.height + dx || c < dy || c >= a.width + dy
  }

  /** One cell of the extended buffer: zero on the border, a copy of the image where the copy
      landed, and `np.empty` contents where nothing was ever written. */
  function ExtendedCell(a: Image, dx: nat, dy: nat, junk: Junk, r: nat, c: nat): (cell: seq<int>)
    requires IsImage(a)
    ensures |cell| == a.depth
    ensures dx >= 1 && dy >= 1 ==> forall k :: 0 <= k < a.depth ==> cell[k] == At(a, r - dx, c - dy, k)
    ensures (dx == 0 || dy == 0) && !OnBorder(a, dx, dy, r, c) ==>
      forall k :: 0 <= k < a.depth ==> cell[k] == junk(r, c, k)
  {
    if OnBorder(a, dx, dy, r, c) then Zeros(a.depth)
    else if dx >= 1 && dy >= 1 then a.px[r - dx][c - dy]
    else seq(a.depth, k => junk(r, c, k))
  }

  /** Lines 40-51: allocate the enlarged buffer, zero the border, copy the image to the centre. */
  function Extend(a: Image, dx: nat, dy: nat, junk: Junk): (r: Result<Image, Fault>)
    requires IsImage(a)
    ensures r.Ok? <==> CopyFits(dx, a.height) && CopyFits(dy, a.width)
    ensures r.Err? ==> r.error == CannotBroadcast
    ensures r.Ok? ==> IsImage(r.value) && r.value.ndim == a.ndim && r.value.depth == a.depth
    ensures r.Ok? ==> r.value.height == a.height + 2 * dx && r.value.width == a.width + 2 * dy
  {
    if !CopyFits(dx, a.height) || !CopyFits(dy, a.width) then Err(CannotBroadcast)
    else
      var h := a.height + 2 * dx;
      var w := a.width + 2 * dy;
      Ok(Image(a.ndim, h, w, a.depth,
        seq(h, r requires 0 <= r < h =>
          seq(w, c requires 0 <= c < w => ExtendedCell(a, dx, dy, junk, r, c)))))
  }

  /** `estender_com_zeros(imagem, tamanho)`. Arrays of rank 4 and more, which the function
      also pads, are outside this model. */
  function ExtendWithZeros(a: Image, size: SizeArg, junk: Junk): (r: Result<Image, Fault>)
    requires Valid(a) && a.ndim <= 3
    ensures a.ndim < 2 ==> r == Err(BadImageRank)
    ensures a.ndim >= 2 && BorderWidths(size).Err? ==> r == Err(BorderWidths(size).error)
    ensures r.Ok? ==> BorderWidths(size).Ok? && IsImage(r.value) && r.value.ndim == a.ndim
    ensures r.Ok? ==> r.value.height == a.height + 2 * BorderWidths(size).value.0
    ensures r.Ok? ==> r.value.width == a.width + 2 * BorderWidths(size).value.1
  {
    if a.ndim < 2 then Err(BadImageRank)
    else
      match BorderWidths(size)
      case Err(f) => Err(f)
      case Ok((dx, dy)) => Extend(a, dx, dy, junk)
  }

  /** The argument the convolution passes: the tuple (dx, dy). */
  function Pair(dx: nat, dy: nat): SizeArg
  {
    Items([Int(dx), Int(dy)])
  }

  /** With both border widths at least 1 the extension always succeeds, and every cell of the
      result is the image extended with zeros, shifted by (dx, dy): the centre is a copy of the
      input, everything else is 0, and the uninitialised buffer leaves no trace. */
  lemma ExtendIsShiftedImage(a: Image, dx: nat, dy: nat, junk: Junk)
    requires IsImage(a) && dx >= 1 && dy >= 1
    ensures ExtendWithZeros(a, Pair(dx, dy), junk).Ok?
    ensures var e := ExtendWithZeros(a, Pair(dx, dy), junk).value;
      && SameShape(e, Image(a.ndim, a.height + 2 * dx, a.width + 2 * dy, a.depth, []))
      && forall r, c, k :: 0 <= r < e.height && 0 <= c < e.width && 0 <= k < e.depth ==>
           e.px[r][c][k] == At(a, r - dx, c - dy, k)
  {
    assert BorderWidths(Pair(dx, dy)) == Ok((dx, dy));
    var e := ExtendWithZeros(a, Pair(dx, dy), junk).value;
    forall r, c, k | 0 <= r < e.height && 0 <= c < e.width && 0 <= k < e.depth
      ensures e.px[r][c][k] == At(a, r - dx, c - dy, k)
    {
      assert e.px[r][c] == ExtendedCell(a, dx, dy, junk, r, c);
    }
  }

  /** `tamanho=None` pads by one cell on every side. */
  lemma DefaultIsOneCell(a: Image, junk: Junk)
    requires IsImage(a)
    ensures ExtendWithZeros(a, Default, junk) == ExtendWithZeros(a, Pair(1, 1), junk)
  {
    assert BorderWidths(Pair(1, 1)) == Ok((1, 1));
  }

  /** The argument checks in the order lines 21-35 make them. */
  lemma ArgumentErrors(a: Image, size: SizeArg, junk: Junk)
    requires Valid(a) && a.ndim <= 3
    ensures a.ndim < 2 ==> ExtendWithZeros(a, size, junk) == Err(BadImageRank)
    ensures a.ndim >= 2 && size.OtherType? ==>
      ExtendWithZeros(a, size, junk) == Err(SizeNotSequence)
    ensures a.ndim >= 2 && size.Items? && |size.items| != 2 ==>
      ExtendWithZeros(a, size, junk) == Err(BadSize)
    ensures a.ndim >= 2 && size.Items? && (exists e :: e in size.items && (e.NotInt? || e.n < 0)) ==>
      ExtendWithZeros(a, size, junk) == Err(BadSize)
  {
  }

  /** A border width of 0 along an axis of length 2 or more makes the final copy fail: the
      target slice `0:-0` is empty and the image cannot be broadcast into it. */
  lemma ZeroWidthFails(a: Image, dx: nat, dy: nat, junk: Junk)
    requires IsImage(a)
    requires (dx == 0 && a.height >= 2) || (dy == 0 && a.width >= 2)
    ensures ExtendWithZeros(a, Pair(dx, dy), junk) == Err(CannotBroadcast)
  {
    assert BorderWidths(Pair(dx, dy)) == Ok((dx, dy));
  }

  /** The extension succeeds exactly when the copy can broadcast on both axes. */
  lemma SucceedsIff(a: Image, dx: nat, dy: nat, junk: Junk)
    requires IsImage(a)
    ensures ExtendWithZeros(a, Pair(dx, dy), junk).Ok? <==>
      (dx >= 1 || a.height <= 1) && (dy >= 1 || a.width <= 1)
  {
    assert BorderWidths(Pair(dx, dy)) == Ok((dx, dy));
  }

  /** When a zero width does not fail (an axis of length 1), nothing is copied at all: the one
      row of a 1 x w image padded by (0, dy) holds the uninitialised buffer, not the image. */
  lemma ZeroWidthCopiesNothing(a: Image, dy: nat, junk: Junk, c: nat, k: nat)
    requires IsImage(a) && a.height == 1 && (dy >= 1 || a.width <= 1)
    requires dy <= c < a.width + dy && k < a.depth
    ensures ExtendWithZeros(a, Pair(0, dy), junk).Ok?
    ensures ExtendWithZeros(a, Pair(0, dy), junk).value.px[0][c][k] == junk(0, c, k)
  {
    assert BorderWidths(Pair(0, dy)) == Ok((0, dy));
    var e := ExtendWithZeros(a, Pair(0, dy), junk).value;
    assert e.px[0][c] == ExtendedCell(a, 0, dy, junk, 0, c);
  }
}

=== FILE: pushups.dfy ===
/** The push-up counter of cntexercicios/exercicios/flexoes/__init__.py (`contar_flexoes`):
    per frame, the normalised push-up height `h_flexao` drives the `contador`/`check` pair. */
module PushUps {
  import opened Hysteresis

  /** Below this height a push-up is complete. It is the exact value of the double that the
      literal `0.30` denotes, so comparing a double height with it as reals gives Python's
      answer, also for a height equal to that double. */
  const Completed: real := 0.299999999999999988897769753748434595763683319091796875

  /** At or above this height the counter re-arms: the exact value of the double `0.40`. */
  const Rearmed: real := 0.40000000000000002220446049250313080847263336181640625

  /** One frame as the counting step sees it. `valid` is false when no body was detected or the
      posture and hand-distance gates reject the pose; `height` is `h_flexao`. */
  datatype Reading = Reading(valid: bool, height: real)

  /** Lines 89-96: the nested `if check` / `elif` update, reached only by valid frames. */
  function Step(s: Counter, x: Reading): (t: Counter)
    ensures !x.valid ==> t == s
    ensures t.count == s.count || t.count == s.count + 1
    ensures t.count == s.count + 1 <==> s.armed && x.valid && x.height < Completed
    ensures x.valid && Completed <= x.height < Rearmed ==> t == s
    ensures !s.armed ==> (t.armed <==> x.valid && x.height >= Rearmed)
    ensures s.armed && x.valid && x.height < Completed ==> t == Counter(s.count + 1, false)
    ensures s.armed && !(x.valid && x.height < Completed) ==> t == s
    ensures !s.armed && x.valid && x.height >= Rearmed ==> t == Counter(s.count, true)
    ensures !s.armed && !(x.valid && x.height >= Rearmed) ==> t == s
  {
    if !x.valid then s
    else if s.armed then
      if x.height < Completed then Counter(s.count + 1, false) else s
    else if x.height >= Rearmed then Counter(s.count, true)
    else s
  }

  /** Where a reading falls relative to the two thresholds. */
  function ZoneOf(x: Reading): Zone
  {
    if !x.valid then Band
    else if x.height < Completed then Low
    else if x.height >= Rearmed then High
    else Band
  }

  /** The literal nested update is the two-threshold hysteresis step on the readings' zones. */
  lemma StepIsAdvance()
    ensures Classifies(Step, ZoneOf)
  {
  }

  /** A session starts at `contador = 0`, `check = True` (lines 32-34); after any frames its
      count is the number of frames that complete a push-up and it is armed exactly when the
      last decisive reading was a high one. */
  lemma SessionMatchesReference(xs: seq<Reading>)
    ensures Feed(Step, Start, xs) == Counter(Completions(Zones(ZoneOf, xs)), ArmedAfter(Zones(ZoneOf, xs)))
    ensures Feed(Step, Start, []) == Counter(0, true)
  {
    StepIsAdvance();
    FeedMatchesReference(Step, ZoneOf, xs);
  }

  /** The count never decreases and grows by at most one per frame. */
  lemma CountMonotone(xs: seq<Reading>, i: nat, j: nat)
    requires i <= j <= |xs|
    ensures Feed(Step, Start, xs[..i]).count <= Feed(Step, Start, xs[..j]).count
    ensures Feed(Step, Start, xs[..j]).count <= Feed(Step, Start, xs[..i]).count + (j - i)
  {
    StepIsAdvance();
    FeedCountMonotone(Step, ZoneOf, xs, i, j);
  }

  /** A frame counts a push-up exactly when it is a valid reading below `Completed` and the readings
      before it leave the counter armed. */
  lemma CountedIffCompletes(xs: seq<Reading>, i: nat)
    requires i < |xs|
    ensures Counted(Step, xs, i) <==>
      xs[i].valid && xs[i].height < Completed && ArmedAfter(Zones(ZoneOf, xs[..i]))
  {
    StepIsAdvance();
    FeedCountedIffCompletes(Step, ZoneOf, xs, i);
    assert Zones(ZoneOf, xs[..i]) == Zones(ZoneOf, xs)[..i];
  }

  /** No double counting: between two counted frames there is a valid frame at or above the
      re-arming height. */
  lemma NoDoubleCount(xs: seq<Reading>, a: nat, b: nat)
    requires a < b < |xs| && Counted(Step, xs, a) && Counted(Step, xs, b)
    ensures exists m :: a < m < b && xs[m].valid && xs[m].height >= Rearmed
  {
    StepIsAdvance();
    FeedNoDoubleCount(Step, ZoneOf, xs, a, b);
    var m :| a < m < b && ZoneOf(xs[m]) == High;
    assert xs[m].valid && xs[m].height >= Rearmed;
  }

  /** The reading reaches the counting step: landmarks were found and every gate passed. */
  predicate Usable(x: Reading)
  {
    x.valid
  }

  /** Frames without landmarks or rejected by the posture gates, wherever they occur, change
      neither the count nor the flag. */
  lemma InvalidFramesInvisible(s: Counter, xs: seq<Reading>)
    ensures Feed(Step, s, xs) == Feed(Step, s, Keep(xs, Usable))
  {
    SkippedInvisible(Step, Usable, s, xs);
  }

  /** A session that never re-arms counts at most one push-up, however often the height dips
      below the completion threshold. */
  lemma WithoutRearmAtMostOne(xs: seq<Reading>)
    requires forall i :: 0 <= i < |xs| ==> !(xs[i].valid && xs[i].height >= Rearmed)
    ensures Feed(Step, Start, xs).count <= 1
  {
    StepIsAdvance();
    FeedWithoutHighAtMostOne(Step, ZoneOf, xs);
  }

  /** The heights 0.9, 0.9, 0.1, 0.1, 0.9, 0.1 count two push-ups. */
  lemma TwoPushUps()
    ensures var xs := [Reading(true, 0.9), Reading(true, 0.9), Reading(true, 0.1),
                       Reading(true, 0.1), Reading(true, 0.9), Reading(true, 0.1)];
      Feed(Step, Start, xs).count == 2
  {
    var xs := [Reading(true, 0.9), Reading(true, 0.9), Reading(true, 0.1),
               Reading(true, 0.1), Reading(true, 0.9), Reading(true, 0.1)];
    assert Feed(Step, Start, xs[..1]) == Counter(0, true) by { assert xs[..1][..0] == []; }
    assert Feed(Step, Start, xs[..2]) == Counter(0, true) by { assert xs[..2][..1] == xs[..1]; }
    assert Feed(Step, Start, xs[..3]) == Counter(1, false) by { assert xs[..3][..2] == xs[..2]; }
    assert Feed(Step, Start, xs[..4]) == Counter(1, false) by { assert xs[..4][..3] == xs[..3]; }
    assert Feed(Step, Start, xs[..5]) == Counter(1, true) by { assert xs[..5][..4] == xs[..4]; }
    assert xs[..5] == xs[..|xs| - 1];
  }
}

=== FILE: pushups_pixels.dfy ===
/** The earlier push-up counter of src/package/exercicios/flexoes.py (`contar`): per frame,
    the pixel distance between the right shoulder and the right wrist drives `contador` and
    `check`. */
module PushUpsPixels {
  import opened Hysteresis

  /** At or below this distance (pixels) a push-up is complete. */
  const Near: real := 70.0

  /** At or beyond this distance the counter re-arms. */
  const Far: real := 100.0

  /** One frame: no landmarks, or the shoulder-to-wrist distance `distMaoxombro`. */
  datatype Frame = NoPose | Pose(dist: real)

  /** Lines 53-59: two independent `if`s, the counting test first and then the re-arming
      test, reached only when landmarks were found (line 44). */
  function Step(s: Counter, f: Frame): (t: Counter)
    ensures f.NoPose? ==> t == s
    ensures t.count == s.count || t.count == s.count + 1
    ensures t.count == s.count + 1 <==> s.armed && f.Pose? && f.dist <= Near
    ensures f.Pose? && f.dist >= Far ==> t.armed && t.count == s.count
    ensures f.Pose? && Near < f.dist < Far ==> t == s
    ensures s.armed && f.Pose? && f.dist <= Near ==> t == Counter(s.count + 1, false)
    ensures f.Pose? && f.dist >= Far ==> t == Counter(s.count, true)
  {
    match f
    case NoPose => s
    case Pose(d) =>
      var counted := if s.armed && d <= Near then Counter(s.count + 1, false) else s;
      if d >= Far then counted.(armed := true) else counted
  }

  /** Where a frame's distance falls relative to the two thresholds. */
  function ZoneOf(f: Frame): Zone
  {
    match f
    case NoPose => Band
    case Pose(d) => if d <= Near then Low else if d >= Far then High else Band
  }

  /** The two sequential tests are the two-threshold hysteresis step: since Near < Far, a
      frame that counts can never also re-arm. */
  lemma StepIsAdvance()
    ensures Classifies(Step, ZoneOf)
  {
  }

  /** A session starts at `contador = 0`, `check = True` (lines 28-30); after any frames its
      count is the number of frames that complete a push-up and it is armed exactly when the
      last decisive distance was a far one. */
  lemma SessionMatchesReference(fs: seq<Frame>)
    ensures Feed(Step, Start, fs) == Counter(Completions(Zones(ZoneOf, fs)), ArmedAfter(Zones(ZoneOf, fs)))
    ensures Feed(Step, Start, []) == Counter(0, true)
  {
    StepIsAdvance();
    FeedMatchesReference(Step, ZoneOf, fs);
  }

  /** The count never decreases and grows by at most one per frame. */
  lemma CountMonotone(fs: seq<Frame>, i: nat, j: nat)
    requires i <= j <= |fs|
    ensures Feed(Step, Start, fs[..i]).count <= Feed(Step, Start, fs[..j]).count
    ensures Feed(Step, Start, fs[..j]).count <= Feed(Step, Start, fs[..i]).count + (j - i)
  {
    StepIsAdvance();
    FeedCountMonotone(Step, ZoneOf, fs, i, j);
  }

  /** No double counting: between two counted frames there is a frame whose distance reached
      the re-arming threshold. */
  lemma NoDoubleCount(fs: seq<Frame>, a: nat, b: nat)
    requires a < b < |fs| && Counted(Step, fs, a) && Counted(Step, fs, b)
    ensures exists m :: a < m < b && fs[m].Pose? && fs[m].dist >= Far
  {
    StepIsAdvance();
    FeedNoDoubleCount(Step, ZoneOf, fs, a, b);
    var m :| a < m < b && ZoneOf(fs[m]) == High;
    assert fs[m].Pose? && fs[m].dist >= Far;
  }

  predicate HasPose(f: Frame)
  {
    f.Pose?
  }

  /** Frames without landmarks, wherever they occur, change neither the count nor the flag. */
  lemma MissingPoseInvisible(s: Counter, fs: seq<Frame>)
    ensures Feed(Step, s, fs) == Feed(Step, s, Keep(fs, HasPose))
  {
    SkippedInvisible(Step, HasPose, s, fs);
  }

  /** A session in which the arm never extends to the re-arming distance counts at most one
      push-up. */
  lemma WithoutRearmAtMostOne(fs: seq<Frame>)
    requires forall i :: 0 <= i < |fs| ==> !(fs[i].Pose? && fs[i].dist >= Far)
    ensures Feed(Step, Start, fs).count <= 1
  {
    StepIsAdvance();
    FeedWithoutHighAtMostOne(Step, ZoneOf, fs);
  }
}

=== FILE: registry.dfy ===
/** The exercise registry of cntexercicios/exercicios/_registro.py and of
    src/cntexercicios/exercicios/_registro.py (the two files run the same logic; the first one
    also emits a deprecation warning). A module-level dict maps exercise names to counting
    functions. */
module Registry {
  import opened Base

  /** A Python value passed as an argument: a str, an int (a bool is an int to Python), or a
      value of any other type. */
  datatype Value = Str(s: string) | Int(i: int) | OtherValue

  /** A counting function, as an opaque value: `id` tells functions apart and `raisesOn` holds
      the video arguments on which calling it raises an exception. */
  datatype CountingFn = CountingFn(id: nat, raisesOn: set<Value>)

  /** The dict `__exercicios`: its entries and the order in which its keys were first
      inserted, which is the order Python iterates them in. */
  datatype Registry = Registry(table: map<string, CountingFn>, order: seq<string>)

  /** Why a registry function raised. */
  datatype Fault =
    | DuplicateExercise   // the name is already registered
    | ExerciseNotStr      // `exercicio` is not a str
    | VideoNotStrOrInt    // `video` is neither a str nor an int
    | NegativeVideo       // `video` is a negative int
    | UnknownExercise     // no counter is registered under `exercicio`
    | CountingFailed      // the counter raised
  {
    function Raises(): PyException
    {
      match this
      case DuplicateExercise => RuntimeError
      case ExerciseNotStr => TypeError
      case VideoNotStrOrInt => TypeError
      case NegativeVideo => ValueError
      case UnknownExercise => ValueError
      case CountingFailed => RuntimeError
    }
  }

  predicate Distinct<T(==)>(s: seq<T>)
  {
    forall i, j :: 0 <= i < j < |s| ==> s[i] != s[j]
  }

  /** The dict's keys, each once, in insertion order. */
  ghost predicate Valid(reg: Registry)
  {
    Distinct(reg.order) && forall n :: n in reg.table <==> n in reg.order
  }

  /** The registry when the module is first imported. */
  const Empty: Registry := Registry(map[], [])

  /** The decorator `registrar_exercicio(name)` returns; it closes over `name` only. */
  datatype Decorator = Decorator(name: string)

  /** `registrar_exercicio(name)`: the duplicate check happens here, when the factory is
      called, not when its decorator is applied. */
  function RegisterExercise(reg: Registry, name: string): (r: Result<Decorator, Fault>)
    ensures r.Err? <==> name in reg.table
    ensures r.Err? ==> r.error == DuplicateExercise && r.error.Raises() == RuntimeError
    ensures r.Ok? ==> r.value == Decorator(name)
  {
    if name in reg.table then Err(DuplicateExercise) else Ok(Decorator(name))
  }

  /** Applying the decorator to `f`: `__exercicios[name] = f`, then `return f`. Assigning to an
      existing key keeps its place in the iteration order. */
  function Decorate(reg: Registry, d: Decorator, f: CountingFn): (res: (Registry, CountingFn))
    requires Valid(reg)
    ensures Valid(res.0) && res.1 == f
    ensures res.0.table == reg.table[d.name := f]
    ensures d.name in reg.table ==> res.0.order == reg.order
    ensures d.name !in reg.table ==> res.0.order == reg.order + [d.name]
  {
    var order := if d.name in reg.table then reg.order else reg.order + [d.name];
    (Registry(reg.table[d.name := f], order), f)
  }

  lemma {:induction false} DistinctCardinality<T>(s: seq<T>)
    requires Distinct(s)
    ensures |set x | x in s| == |s|
  {
    if s != [] {
      var p := s[..|s| - 1];
      var x := s[|s| - 1];
      DistinctCardinality(p);
      assert (set y | y in s) == (set y | y in p) + {x};
      assert x !in (set y | y in p);
    }
  }

  /** `listar_exercicios()`: every registered name exactly once, in the order the names were
      first registered. Listing reads the registry and changes nothing. */
  function ListExercises(reg: Registry): (names: seq<string>)
    requires Valid(reg)
    ensures forall n :: n in names <==> n in reg.table
    ensures Distinct(names)
    ensures |names| == |reg.table|
  {
    DistinctCardinality(reg.order);
    assert (set y | y in reg.order) == reg.table.Keys;
    reg.order
  }

  /** The statement `@registrar_exercicio(name)` on the definition of `f`. */
  function Declare(reg: Registry, name: string, f: CountingFn): (r: Result<Registry, Fault>)
    requires Valid(reg)
    ensures r.Err? <==> name in reg.table
    ensures r.Ok? ==> Valid(r.value)
  {
    match RegisterExercise(reg, name)
    case Err(e) => Err(e)
    case Ok(d) => Ok(Decorate(reg, d, f).0)
  }

  /** The names declared, in order. */
  function Names(defs: seq<(string, CountingFn)>): seq<string>
  {
    seq(|defs|, i requires 0 <= i < |defs| => defs[i].0)
  }

  lemma NamesCons(defs: seq<(string, CountingFn)>)
    requires defs != []
    ensures Names(defs) == [defs[0].0] + Names(defs[1..])
  {
  }

  /** No name is declared twice. */
  predicate DistinctNames(defs: seq<(string, CountingFn)>)
  {
    forall i, j :: 0 <= i < j < |defs| ==> defs[i].0 != defs[j].0
  }

  /** A sequence of declarations, as the imports of the exercise modules run them; the first
      duplicate stops everything. */
  function DeclareAll(reg: Registry, defs: seq<(string, CountingFn)>): (r: Result<Registry, Fault>)
    requires Valid(reg)
    ensures r.Ok? ==> Valid(r.value)
    decreases |defs|
  {
    if defs == [] then Ok(reg)
    else match Declare(reg, defs[0].0, defs[0].1)
      case Err(e) => Err(e)
      case Ok(next) => DeclareAll(next, defs[1..])
  }

  /** The declaration of `f` under a fresh name, as it updates the registry. */
  function Added(reg: Registry, name: string, f: CountingFn): Registry
    requires Valid(reg)
  {
    Decorate(reg, Decorator(name), f).0
  }

  lemma FreshStep(reg: Registry, defs: seq<(string, CountingFn)>)
    requires Valid(reg) && defs != [] && defs[0].0 !in reg.table
    ensures DeclareAll(reg, defs) == DeclareAll(Added(reg, defs[0].0, defs[0].1), defs[1..])
  {
  }

  /** Declaring fresh, pairwise different names succeeds and appends the names to the
      listing in declaration order. */
  lemma {:induction false} DeclareFresh(reg: Registry, defs: seq<(string, CountingFn)>)
    requires Valid(reg) && DistinctNames(defs)
    requires forall i :: 0 <= i < |defs| ==> defs[i].0 !in reg.table
    ensures DeclareAll(reg, defs).Ok?
    ensures DeclareAll(reg, defs).value.order == reg.order + Names(defs)
    decreases |defs|
  {
    if defs != [] {
      FreshStep(reg, defs);
      var next := Added(reg, defs[0].0, defs[0].1);
      var rest := defs[1..];
      forall i | 0 <= i < |rest|
        ensures rest[i].0 !in next.table
      {
        assert defs[i + 1].0 != defs[0].0;
      }
      DeclareFresh(next, rest);
      NamesCons(defs);
      assert reg.order + Names(defs) == next.order + Names(rest);
    }
  }

  /** ... and registers each name to the function declared under it. */
  lemma {:induction false} DeclareFreshMaps(reg: Registry, defs: seq<(string, CountingFn)>)
    requires Valid(reg) && DistinctNames(defs)
    requires forall i :: 0 <= i < |defs| ==> defs[i].0 !in reg.table
    ensures DeclareAll(reg, defs).Ok?
    ensures forall i :: 0 <= i < |defs| ==>
      defs[i].0 in DeclareAll(reg, defs).value.table &&
      DeclareAll(reg, defs).value.table[defs[i].0] == defs[i].1
    decreases |defs|
  {
    if defs != [] {
      FreshStep(reg, defs);
      var next := Added(reg, defs[0].0, defs[0].1);
      var rest := defs[1..];
      forall i | 0 <= i < |rest|
        ensures rest[i].0 !in next.table && rest[i].0 != defs[0].0
      {
        assert defs[i + 1].0 != defs[0].0;
      }
      DeclareFreshMaps(next, rest);
      DeclareKeepsOthers(next, rest, defs[0].0);
      var r := DeclareAll(next, rest).value;
      forall i | 0 <= i < |defs|
        ensures defs[i].0 in r.table && r.table[defs[i].0] == defs[i].1
      {
        if i > 0 {
          assert defs[i] == rest[i - 1];
        }
      }
    }
  }

  /** Declarations of other names leave an entry alone. */
  lemma {:induction false} DeclareKeepsOthers(reg: Registry, defs: seq<(string, CountingFn)>, n: string)
    requires Valid(reg) && n in reg.table
    requires forall i :: 0 <= i < |defs| ==> defs[i].0 != n
    requires DeclareAll(reg, defs).Ok?
    ensures n in DeclareAll(reg, defs).value.table
    ensures DeclareAll(reg, defs).value.table[n] == reg.table[n]
    decreases |defs|
  {
    if defs != [] {
      FreshStep(reg, defs);
      DeclareKeepsOthers(Added(reg, defs[0].0, defs[0].1), defs[1..], n);
    }
  }

  /** Registering the exercises of a fresh program: the listing is exactly the declared names,
      in declaration order, and each maps to the function declared under it. */
  lemma ListingFollowsDeclarations(defs: seq<(string, CountingFn)>)
    requires DistinctNames(defs)
    ensures DeclareAll(Empty, defs).Ok?
    ensures ListExercises(DeclareAll(Empty, defs).value) == Names(defs)
    ensures forall i :: 0 <= i < |defs| ==>
      defs[i].0 in DeclareAll(Empty, defs).value.table &&
      DeclareAll(Empty, defs).value.table[defs[i].0] == defs[i].1
  {
    DeclareFresh(Empty, defs);
    DeclareFreshMaps(Empty, defs);
  }

  /** Any repeated name, or a name already registered, makes the declarations fail with the
      duplicate-name RuntimeError. */
  lemma {:induction false} DuplicateDeclarationFails(reg: Registry, defs: seq<(string, CountingFn)>)
    requires Valid(reg)
    requires !DistinctNames(defs) || exists i :: 0 <= i < |defs| && defs[i].0 in reg.table
    ensures DeclareAll(reg, defs) == Err(DuplicateExercise)
    decreases |defs|
  {
    if defs[0].0 !in reg.table {
      FreshStep(reg, defs);
      var next := Added(reg, defs[0].0, defs[0].1);
      var rest := defs[1..];
      if exists i :: 0 <= i < |defs| && defs[i].0 in reg.table {
        var i :| 0 <= i < |defs| && defs[i].0 in reg.table;
        assert rest[i - 1].0 in next.table;
      } else {
        var i, j :| 0 <= i < j < |defs| && defs[i].0 == defs[j].0;
        if i == 0 {
          assert rest[j - 1].0 in next.table;
        } else {
          assert rest[i - 1].0 == rest[j - 1].0;
        }
      }
      DuplicateDeclarationFails(next, rest);
    }
  }

  /** Because the check runs when the factory is called, two factories obtained for the same
      unregistered name both succeed; applying both leaves the LATER function registered and
      the name listed once. */
  lemma CheckedOnlyAtFactoryCall(reg: Registry, name: string, f: CountingFn, g: CountingFn)
    requires Valid(reg) && name !in reg.table
    ensures RegisterExercise(reg, name).Ok?
    ensures var d := RegisterExercise(reg, name).value;
      var once := Decorate(reg, d, f).0;
      var twice := Decorate(once, d, g).0;
      && twice.table[name] == g
      && ListExercises(twice) == reg.order + [name]
  {
  }

  /** The outcome of `contar_exercicios`: it returns None or raises, and it may have called one
      counting function on the video. */
  datatype Call = Call(outcome: Result<(), Fault>, invoked: seq<(CountingFn, Value)>)

  /** `contar_exercicios(exercicio, video)`: argument checks, lookup, then the call of the
      counter, whose result is discarded. */
  function CountExercise(reg: Registry, exercise: Value, video: Value): (c: Call)
    requires Valid(reg)
    ensures !exercise.Str? ==> c == Call(Err(ExerciseNotStr), [])
    ensures exercise.Str? && video.OtherValue? ==> c == Call(Err(VideoNotStrOrInt), [])
    ensures exercise.Str? && video.Int? && video.i < 0 ==> c == Call(Err(NegativeVideo), [])
    ensures c.outcome.Ok? <==>
      |c.invoked| == 1 && c.invoked[0].1 !in c.invoked[0].0.raisesOn
    ensures c.outcome.Err? && c.outcome.error != CountingFailed ==> c.invoked == []
  {
    if !exercise.Str? then Call(Err(ExerciseNotStr), [])
    else if video.OtherValue? then Call(Err(VideoNotStrOrInt), [])
    else if video.Int? && video.i < 0 then Call(Err(NegativeVideo), [])
    else if exercise.s !in reg.table then Call(Err(UnknownExercise), [])
    else
      var f := reg.table[exercise.s];
      if video in f.raisesOn then Call(Err(CountingFailed), [(f, video)])
      else Call(Ok(()), [(f, video)])
  }

  /** Once the arguments pass the checks, an unknown name raises ValueError without calling
      anything, and a known name calls exactly its registered function on the video: the call
      returns None when the function returns, and RuntimeError when it raises. */
  lemma LookupAndCall(reg: Registry, name: string, video: Value)
    requires Valid(reg) && (video.Str? || (video.Int? && video.i >= 0))
    ensures name !in reg.table ==>
      CountExercise(reg, Str(name), video) == Call(Err(UnknownExercise), [])
    ensures name in reg.table ==>
      && CountExercise(reg, Str(name), video).invoked == [(reg.table[name], video)]
      && (CountExercise(reg, Str(name), video).outcome == Ok(()) <==> video !in reg.table[name].raisesOn)
      && (video in reg.table[name].raisesOn ==>
            CountExercise(reg, Str(name), video).outcome == Err(CountingFailed))
  {
  }

  /** The checks run in this order: a non-str exercise is a TypeError whatever the video; a
      video of another type is a TypeError whatever the registry holds; a negative device index
      is a ValueError even for an unknown exercise. */
  lemma ChecksPrecedeLookup(reg: Registry, exercise: Value, video: Value)
    requires Valid(reg)
    ensures var c := CountExercise(reg, exercise, video);
      && (c.outcome == Err(ExerciseNotStr) <==> !exercise.Str?)
      && (c.outcome == Err(VideoNotStrOrInt) <==> exercise.Str? && video.OtherValue?)
      && (c.outcome == Err(NegativeVideo) <==> exercise.Str? && video.Int? && video.i < 0)
      && (c.outcome.Err? ==>
            (c.outcome.error.Raises() == TypeError <==>
               c.outcome.error in {ExerciseNotStr, VideoNotStrOrInt}))
  {
  }
}

=== FILE: sums.dfy ===
/** Finite double sums over a rectangle of indices, used for the multiply-accumulate of a
    correlation kernel. */
module Sums {

  /** Sum of g(i, j) for j in [0, n). */
  function RowSum(g: (nat, nat) -> int, i: nat, n: nat): int
  {
    if n == 0 then 0 else RowSum(g, i, n - 1) + g(i, n - 1)
  }

  /** Sum of g(i, j) for i in [0, m) and j in [0, n). */
  function GridSum(g: (nat, nat) -> int, m: nat, n: nat): int
  {
    if m == 0 then 0 else GridSum(g, m - 1, n) + RowSum(g, m - 1, n)
  }

  lemma {:induction false} RowSumExt(g: (nat, nat) -> int, h: (nat, nat) -> int, i: nat, n: nat)
    requires forall j: nat :: j < n ==> g(i, j) == h(i, j)
    ensures RowSum(g, i, n) == RowSum(h, i, n)
  {
    if n > 0 {
      RowSumExt(g, h, i, n - 1);
    }
  }

  /** Sums of two functions that agree on the rectangle are equal. */
  lemma {:induction false} GridSumExt(g: (nat, nat) -> int, h: (nat, nat) -> int, m: nat, n: nat)
    requires forall i: nat, j: nat :: i < m && j < n ==> g(i, j) == h(i, j)
    ensures GridSum(g, m, n) == GridSum(h, m, n)
  {
    if m > 0 {
      GridSumExt(g, h, m - 1, n);
      RowSumExt(g, h, m - 1, n);
    }
  }

  lemma {:induction false} RowSumZero(g: (nat, nat) -> int, i: nat, n: nat)
    requires forall j: nat :: j < n ==> g(i, j) == 0
    ensures RowSum(g, i, n) == 0
  {
    if n > 0 {
      RowSumZero(g, i, n - 1);
    }
  }

  /** A function that vanishes on the rectangle sums to zero. */
  lemma {:induction false} GridSumZero(g: (nat, nat) -> int, m: nat, n: nat)
    requires forall i: nat, j: nat :: i < m && j < n ==> g(i, j) == 0
    ensures GridSum(g, m, n) == 0
  {
    if m > 0 {
      GridSumZero(g, m - 1, n);
      RowSumZero(g, m - 1, n);
    }
  }

  lemma {:induction false} RowSumSingle(g: (nat, nat) -> int, i: nat, n: nat, j0: nat)
    requires j0 < n
    requires forall j: nat :: j < n && j != j0 ==> g(i, j) == 0
    ensures RowSum(g, i, n) == g(i, j0)
  {
    if n - 1 == j0 {
      RowSumZero(g, i, n - 1);
    } else {
      RowSumSingle(g, i, n - 1, j0);
    }
  }

  /** A function that vanishes on the rectangle except at one point sums to its value there. */
  lemma {:induction false} GridSumSingle(g: (nat, nat) -> int, m: nat, n: nat, i0: nat, j0: nat)
    requires i0 < m && j0 < n
    requires forall i: nat, j: nat :: i < m && j < n && (i != i0 || j != j0) ==> g(i, j) == 0
    ensures GridSum(g, m, n) == g(i0, j0)
  {
    if m - 1 == i0 {
      GridSumZero(g, m - 1, n);
      RowSumSingle(g, m - 1, n, j0);
    } else {
      GridSumSingle(g, m - 1, n, i0, j0);
      RowSumZero(g, m - 1, n);
    }
  }
}
